=== FILE: README.md ===
# Somerville Dental appointment pipeline, in Dafny

This project models the three pieces of sequential logic in the dental
practice's marketing site. The rest of the site is presentational markup.

- **The appointment form controller** (`components/AppointmentModal.tsx`).
  This covers live phone formatting (`formatPhone`), the email and phone
  checks (`validateEmail`, `validatePhone`), blur and submit validation,
  and the modal's state: `formData`, `errors`, `isSubmitting` and
  `showSuccess`. That state changes through `handleChange`, `handleBlur`,
  `handleSubmit` and `handleClose`.
- **The appointment email endpoint** (`app/api/send-appointment-email/route.ts`).
  It covers `escapeHtml`, the `safe*` values and the required-field check.
  It also covers the digits-only `tel:` target and the ordered, conditional
  dispatch of the confirmation and business mails.
- **The testimonial carousel** (`components/Testimonials.tsx`): the index
  rotation and the three-entry window.

Modules, one per file:

| module | models |
|---|---|
| `Options` | optional values (absent JSON fields, unset settings) |
| `Text` | `\d`, `\s`, digit stripping, `trim()` and blank fields |
| `PhoneNumber` | `formatPhone`, `validatePhone` |
| `EmailAddress` | `validateEmail` and its regular expression |
| `Appointment` | the six-field appointment request that the form and the handler share |
| `AppointmentForm` | the modal's state record and its handlers, and runs over event sequences |
| `Html` | `escapeHtml`, the `\n` to `<br>` replacement, their decoders |
| `AppointmentEmail` | `POST` as a pure function from body and configuration to response and send attempts |
| `Testimonials` | the rotation step and `getCurrentTestimonials` |

Modelling choices:

- Strings are `seq<char>`. `IsDigit` is ECMAScript's `\d`, which matches ASCII digits only.
- `IsSpace` is the full ECMAScript WhiteSpace and LineTerminator set.
  `\s` matches exactly these characters and `trim()` removes exactly these.
  Characters are Unicode scalar values, not UTF-16 code units: an astral
  character is one `char` where JavaScript sees two code units, and a lone
  surrogate, which a JavaScript string can hold, has no `char` at all.
- The form's state updates are pure functions from one `ModalState` to the next.
- The network call appears twice in the model. `HandleSubmit` returns the
  payload it hands to the transport. A later `Settled` event carries the
  outcome, either delivered or failed.
- The email handler receives the mailer as a parameter `send: Mail -> Option<string>`.
  The result `None` means the mail went out. `Some(message)` means
  `sendMail` threw with that message.
- Each rendered template is a `Document`: the template's identity plus the
  values put into its placeholders, in order of appearance. The literal
  markup is not modelled.
- A JSON field is `Option<string>`. `None` stands for a value that is
  absent or not a string. Calling `escapeHtml` on such a value throws,
  because it has no `replace` method.

## Quirks of the code

- Closing the modal does not lower `isSubmitting`. `handleClose` resets
  the fields, the errors and `showSuccess` only. So a submission still in
  flight turns the success screen on after the modal was closed (`SettleAfterClose`).
- A payload with an absent field gets a 500. The six
  `escapeHtml` calls come before the presence check, and the first call on
  a missing field throws. The 400 "Missing required fields" answer happens
  only when every field is a string and one of them is `""`. A
  whitespace-only field passes the server check.
- The phone shape for four to six digits is `(DDD) D…`, with as many
  digits after the parenthesis as were typed.
- The comment on line 117 says the `stopPropagation()` call prevents HTML5
  validation, but it runs inside the submit handler, after the browser has
  already validated the form. The `type="email"` input (line 339) is still
  checked by the browser, and an address it rejects never reaches
  `handleSubmit`.
- An apostrophe in the phone reaches the `tel:` target as the digits
  `039`, because the target is taken from the escaped phone
  (`TelTargetApostrophe`).

## Model

| member | source | states |
|---|---|---|
| Text.Digits | components/AppointmentModal.tsx:42 | stripping non-digits yields only digits and never lengthens the string |
| Text.DigitsAppend | components/AppointmentModal.tsx:42 | the digits of a concatenation are the digits of each part, concatenated in order |
| Text.TrimStart | components/AppointmentModal.tsx:86 | the result is a suffix of the input; every dropped character is whitespace; the result does not start with whitespace |
| Text.TrimEnd | components/AppointmentModal.tsx:86 | the result is a prefix of the input; every dropped character is whitespace; the result does not end with whitespace |
| Text.Trim | components/AppointmentModal.tsx:86 | the result is no longer than the input, neither starts nor ends with whitespace, and is empty exactly when every character of the input is whitespace |
| Text.IsBlank | components/AppointmentModal.tsx:86 | `!value.trim()` holds exactly when every character is whitespace |
| PhoneNumber.Punctuate | components/AppointmentModal.tsx:43-45 | the punctuated value never exceeds 14 characters; up to three digits it is the digits themselves; from four on it opens with `(`, the first three digits and `) ` |
| PhoneNumber.FormatPhone | components/AppointmentModal.tsx:41-46 | the formatted value never exceeds 14 characters, the input's `maxLength` (line 325) |
| PhoneNumber.FormatPhoneDigits | components/AppointmentModal.tsx:41-45 | the digits of the output are exactly the first min(n, 10) digits of the input, in order; no other digit is introduced |
| PhoneNumber.FormatPhoneShape | components/AppointmentModal.tsx:43-45 | up to 3 digits: the digits alone; 4 to 6: a prefix of `(ddd) ddd-dddd` of length n+3 ending on a digit; 7 or more: such a prefix of length min(n,10)+4 |
| PhoneNumber.FormatPhoneIdempotent | components/AppointmentModal.tsx:41-46 | formatting an already formatted value changes nothing |
| PhoneNumber.ValidateFormattedPhone | components/AppointmentModal.tsx:54-57 | a formatted value passes `validatePhone` exactly when the raw input had at least ten digits |
| PhoneNumber.ValidFormattedPhoneFillsMask | components/AppointmentModal.tsx:41-57 | a formatted value that passes `validatePhone` is a full 14-character `(DDD) DDD-DDDD` |
| PhoneNumber.PunctuateDigits | components/AppointmentModal.tsx:43-45 | the punctuation the formatter inserts holds no digit and drops every digit after the tenth |
| PhoneNumber.FormatTenDigits | components/AppointmentModal.tsx:41-46 | ten raw digits such as `7818741630` format to `(781) 874-1630`, and that result formats to itself |
| PhoneNumber.FormatShortNumbers | components/AppointmentModal.tsx:43-44 | `781` stays `781`; `7818` becomes `(781) 8` |
| PhoneNumber.ValidatePhone | components/AppointmentModal.tsx:54-57 | a value that passes has at least ten characters |
| PhoneNumber.ValidatePhoneDigitCount | components/AppointmentModal.tsx:54-57 | a string of digits passes exactly when it has ten of them, so nine or eleven digits fail |
| EmailAddress.ValidateEmail | components/AppointmentModal.tsx:49-51 | an accepted address has at least five characters, contains an `@`, and does not start with one |
| EmailAddress.ValidateEmailMatchesPattern | components/AppointmentModal.tsx:49-51 | no whitespace, exactly one `@` after a non-empty local part, and a `.` inside the domain (not first, not last) holds exactly when `^[^\s@]+@[^\s@]+\.[^\s@]+$` matches |
| EmailAddress.ValidEmailMatches | components/AppointmentModal.tsx:49-51 | every accepted address splits into the pattern's three runs |
| EmailAddress.MatchIsValidEmail | components/AppointmentModal.tsx:49-51 | every string the pattern matches is accepted |
| EmailAddress.ValidEmailExample | components/AppointmentModal.tsx:49-51 | `a@b.co` is accepted |
| EmailAddress.InvalidEmailExamples | components/AppointmentModal.tsx:49-51 | `a@b` and `plainstring` are rejected |
| AppointmentForm.RequiredMessage | components/AppointmentModal.tsx:88-99 | a blank field's message is the field's own "… is required." text and is never empty; `handleSubmit` (lines 122-147) uses the same texts |
| AppointmentForm.RequiredMessageDistinct | components/AppointmentModal.tsx:88-104 | two fields have the same required message exactly when they are the same field, and no required message equals the invalid-email or invalid-phone message |
| AppointmentForm.FieldError | components/AppointmentModal.tsx:84-105 | the message is empty exactly when the value is non-blank and, for email and phone, well-formed; a blank value always gets the field's required message |
| AppointmentForm.ValidationErrors | components/AppointmentModal.tsx:120-148 | a field has an entry exactly when it fails validation, and the entry is that field's non-empty message |
| AppointmentForm.ValidationErrorsEmptyIff | components/AppointmentModal.tsx:120-153 | the new error map is empty exactly when every field is non-blank, the email is valid and the phone is valid |
| AppointmentForm.HandleChange | components/AppointmentModal.tsx:59-80 | only the named field changes, to the formatted value for the phone; that field's error is cleared; the error keys, other errors and both flags are unchanged; the phone field stays formatted |
| AppointmentForm.HandleBlur | components/AppointmentModal.tsx:82-113 | a failing value records its message for the field; a passing value leaves the errors as they were; form and flags are unchanged |
| AppointmentForm.RecordOnlyAdds | components/AppointmentModal.tsx:107-112 | spreading `errors` and setting one key to a non-empty message adds only that key, keeps every other message and keeps every error already shown |
| AppointmentForm.BlurOnlyAdds | components/AppointmentModal.tsx:107-112 | blur never removes an error: keys only grow, by at most the blurred field, and shown errors of other fields keep their messages |
| AppointmentForm.BlurErrorIff | components/AppointmentModal.tsx:82-112 | after blur the field shows an error exactly when its value fails or it already showed one |
| AppointmentForm.HandleSubmit | components/AppointmentModal.tsx:115-156 | the transport is called exactly when the form is valid, with the current form and `isSubmitting` raised; otherwise the error map is replaced by the non-empty fresh validation result; a blank field always gets its required message |
| AppointmentForm.HandleSettled | components/AppointmentModal.tsx:156-180 | once the call settles, `showSuccess` is on and `isSubmitting` is off; form and errors are unchanged |
| AppointmentForm.SettledIgnoresOutcome | components/AppointmentModal.tsx:172-177 | a failed delivery leaves the same state as a successful one |
| AppointmentForm.HandleClose | components/AppointmentModal.tsx:183-195 | every field is `""`, no errors, no success screen, and `isSubmitting` is untouched |
| AppointmentForm.CloseIdempotent | components/AppointmentModal.tsx:183-195 | closing twice equals closing once; closing an idle modal restores the initial state of lines 13-24 |
| AppointmentForm.Step | components/AppointmentModal.tsx:115-163 | an event hands a payload to the transport only when that payload is valid and equals the current form, and no earlier submission is in flight; the phone field stays formatted |
| AppointmentForm.Run | components/AppointmentModal.tsx:115-163 | over any event sequence every payload sent is valid, and a formatted phone field stays formatted |
| AppointmentForm.RunRequestsFormatted | components/AppointmentModal.tsx:63-66 | every payload sent from a formatted state carries a phone the formatter leaves unchanged |
| AppointmentForm.RunFromInitial | components/AppointmentModal.tsx:13-66 | from the initial state, the phone field is always formatted and every payload's phone is a full `(DDD) DDD-DDDD` |
| AppointmentForm.SettleAfterClose | components/AppointmentModal.tsx:178-195 | closing during a submission and then settling shows the success screen over an empty form |
| Html.EscapeChar | app/api/send-appointment-email/route.ts:6-12 | each replacement holds no `<`, `>`, `"` or `'`; every other character maps to itself |
| Html.EscapeHtml | app/api/send-appointment-email/route.ts:5-14 | the output contains no `<`, `>`, `"` or `'` and is at least as long as the input |
| Html.EscapePlain | app/api/send-appointment-email/route.ts:13 | a string with none of the five special characters is returned as it is |
| Html.UnescapeEscape | app/api/send-appointment-email/route.ts:5-14 | decoding the five entities recovers the input |
| Html.EscapeInjective | app/api/send-appointment-email/route.ts:5-14 | two different inputs never escape to the same output |
| Html.BreakLines | app/api/send-appointment-email/route.ts:27 | the output contains no newline |
| Html.BreakLinesSafe | app/api/send-appointment-email/route.ts:27 | on markup-free input, every `<` and `>` of the output belongs to a `<br>` and no quote appears |
| Html.SafeRequest | app/api/send-appointment-email/route.ts:27 | `safeAppointmentRequest` opens and closes no tag but `<br>`, holds no quote and no newline |
| Html.UnbreakBreak | app/api/send-appointment-email/route.ts:27 | on text without `<`, turning `<br>` back into newlines undoes the replacement |
| Html.SafeRequestDecodes | app/api/send-appointment-email/route.ts:27 | removing the `<br>` tags and decoding the entities of `safeAppointmentRequest` gives back the request |
| AppointmentEmail.FirstAbsent | app/api/send-appointment-email/route.ts:22-27 | no field is reported exactly when all six are strings; otherwise the reported field is absent and every field escaped before it is a string |
| AppointmentEmail.Sanitize | app/api/send-appointment-email/route.ts:21-27 | every `safe*` value is safe to embed in HTML, and none loses information: decoding the entities gives back each field, and for the request, turning `<br>` back into newlines first |
| AppointmentEmail.OrDefault | app/api/send-appointment-email/route.ts:190 | an environment setting is used when set and non-empty, and the fallback otherwise |
| AppointmentEmail.FromAddress | app/api/send-appointment-email/route.ts:190 | the sender's display name is `FROM_NAME` when set and non-empty, else `Somerville Dental Associates`; its address is `FROM_EMAIL` likewise, else `business@alexshick.com` |
| AppointmentEmail.BusinessConfigured | app/api/send-appointment-email/route.ts:198 | the `if (process.env.BUSINESS_EMAIL)` test agrees with the `||` of line 332: when it holds, the configured address is chosen over any fallback; when it fails, the fallback is always chosen |
| AppointmentEmail.TelTarget | app/api/send-appointment-email/route.ts:244 | the `tel:` target holds only digits, so it is safe inside the `href` attribute |
| AppointmentEmail.ConfirmationHtmlSlots | app/api/send-appointment-email/route.ts:78-110 | the confirmation's HTML placeholders in order: name (greeting), name, email, phone, carrier, member ID, request with `<br>` breaks |
| AppointmentEmail.ConfirmationTextSlots | app/api/send-appointment-email/route.ts:162-173 | the confirmation's plaintext placeholders in order: name (greeting), name, email, phone, carrier, member ID, and the request as typed |
| AppointmentEmail.BusinessHtmlSlots | app/api/send-appointment-email/route.ts:236-274 | the notification's HTML placeholders in order: name, `mailto:` target and text, `tel:` target and text, carrier, member ID, request with `<br>` breaks, then the reply `mailto:` and call `tel:` targets |
| AppointmentEmail.BusinessTextSlots | app/api/send-appointment-email/route.ts:305-324 | the notification's plaintext placeholders in order: name, email, phone, carrier, member ID, the request as typed, then email and phone again as the quick actions |
| AppointmentEmail.SlotsShowFields | app/api/send-appointment-email/route.ts:78-324 | each template shows every field: both HTML templates every `safe*` value, the notification's also the `tel:` target, and both plaintext templates the request as given and every other `safe*` value |
| AppointmentEmail.ConfirmationSlotsSafe | app/api/send-appointment-email/route.ts:78-173 | filled from the submitted fields, every confirmation HTML value is safe to embed, and its plaintext values are the request as typed and each other field escaped, all of them present |
| AppointmentEmail.BusinessSlotsSafe | app/api/send-appointment-email/route.ts:236-324 | filled from the submitted fields, every notification HTML value, `tel:` targets included, is safe to embed, and its plaintext values are the request as typed and each other field escaped, all of them present |
| AppointmentEmail.ConfirmationMail | app/api/send-appointment-email/route.ts:49-195 | the confirmation goes to the raw `email` with the confirmation template; every value in its HTML is safe to embed; its plaintext carries the request as typed and each other field escaped, and nothing else |
| AppointmentEmail.ConfirmationEmbedsFields | app/api/send-appointment-email/route.ts:78-173 | the confirmation shows every submitted field: its HTML each sanitized value, its plaintext each field but the request escaped, and the request as typed |
| AppointmentEmail.BusinessMail | app/api/send-appointment-email/route.ts:199-336 | the notification goes to the configured business address when there is one; every value in its HTML, the `tel:` targets included, is safe to embed; its plaintext carries the request as typed and each other field escaped, and nothing else |
| AppointmentEmail.BusinessEmbedsFields | app/api/send-appointment-email/route.ts:236-324 | the notification shows every submitted field: its HTML each sanitized value and the `tel:` target of the phone, its plaintext each field but the request escaped, and the request as typed |
| AppointmentEmail.Dispatch | app/api/send-appointment-email/route.ts:188-336 | the confirmation is always attempted first; the notification follows exactly when the confirmation went out and a business address is set; success exactly when every attempt went out, otherwise the last attempt's error message is reported |
| AppointmentEmail.Post | app/api/send-appointment-email/route.ts:16-346 | an unreadable body is a 500 and sends nothing; status 400 exactly when all fields are strings and one is empty, and then nothing is sent; six non-empty strings are always mailed, confirmation first; an absent field gives the 500 of the first throwing escape and sends nothing; at most two sends, the first to the requester's raw `email`; a second only after the first went out and only when a business address is set; success exactly when every attempted send went out; a send error is reported with its own message |
| AppointmentEmail.PostReportsSendError | app/api/send-appointment-email/route.ts:340-345 | when something was attempted and the handler did not succeed, the 500 carries exactly the message of the last attempted send, which threw; no other failure is reported after a send |
| AppointmentEmail.PostAttempts | app/api/send-appointment-email/route.ts:188-336 | the attempts are the confirmation and then the notification, both built from the submitted fields |
| AppointmentEmail.PostHtmlSafe | app/api/send-appointment-email/route.ts:22-303 | every value embedded in any attempted HTML body is safe to embed |
| AppointmentEmail.PostPlaintextSlots | app/api/send-appointment-email/route.ts:162-327 | every attempted plaintext body embeds the raw `appointmentRequest` and each other field escaped, and nothing else |
| AppointmentEmail.EscapeKeepsDigits | app/api/send-appointment-email/route.ts:244 | escaping a text without apostrophes adds no digit |
| AppointmentEmail.TelTargetIsPhoneDigits | app/api/send-appointment-email/route.ts:274 | without apostrophes, the `tel:` target is the digits of the raw phone |
| AppointmentEmail.ApostropheEntityDigits | app/api/send-appointment-email/route.ts:11 | the entity for `'` contributes the digits `039` |
| AppointmentEmail.TelTargetApostrophe | app/api/send-appointment-email/route.ts:244 | an apostrophe in the phone injects `039` into the `tel:` target |
| AppointmentEmail.EscapeTag | app/api/send-appointment-email/route.ts:5-14 | `<t>` escapes to `&lt;t&gt;` for plain `t`, as `<script>` does |
| AppointmentEmail.TwoLineRequest | app/api/send-appointment-email/route.ts:27 | two plain lines joined by a newline render as the lines joined by `<br>` |
| AppointmentEmail.WhitespaceFieldsPass | app/api/send-appointment-email/route.ts:30 | whitespace-only fields pass the presence check and reach the first send |
| Testimonials.Rotate | components/Testimonials.tsx:62 | the next index is always within the list |
| Testimonials.RotateNAdvances | components/Testimonials.tsx:62 | k ticks move an in-range index k places round the list |
| Testimonials.RotatePeriodic | components/Testimonials.tsx:62 | after as many ticks as there are testimonials, the index is back where it started |
| Testimonials.Window | components/Testimonials.tsx:69-76 | the window holds exactly three entries |
| Testimonials.GetCurrentTestimonials | components/Testimonials.tsx:69-76 | the loop yields the three consecutive entries from the current index, read round the end of the list |
| Testimonials.WindowEntries | components/Testimonials.tsx:72 | entry i is `testimonials[(currentIndex + i) % length]` |
| Testimonials.WindowShift | components/Testimonials.tsx:62-76 | after one tick the window is the old one minus its first entry, plus the next entry round the list |
| Testimonials.EntriesDistinct | components/Testimonials.tsx:16-53 | no two testimonials in the list are by the same author |
| Testimonials.WindowDistinct | components/Testimonials.tsx:16-76 | the three entries on screen are pairwise distinct |

## Left out

- The `document.body.style.overflow` effect (components/AppointmentModal.tsx:27-38) is left out because it is a DOM side effect.
- `fetch`, `response.json()` and the status check are left out. The model keeps only the outcome as `Delivered` or `Failed`, because every failure takes the same `catch` path.
- `console.error` logging is left out because it has no effect on state.
- `nodemailer.createTransport` and `sendMail` are foreign calls. They become the `send` parameter, and the SMTP host, port and credentials are not modelled.
- The handler's reading of environment variables is left out. The sender and business settings become a `Config` of optional strings.
- The `parseInt` of the SMTP port is left out, for the same reason.
- The HTML and plaintext template text is left out. Each document is modelled as the ordered list of values put into it.
- The JSON response bodies and their `message` text are left out. A `Response` carries the status and the failure reason.
- The TypeError message produced by an absent field is engine-specific text. `NotAString(field)` stands for it.
- `request.json()` failing is modelled only as `UnreadableBody`. JSON parsing itself is not modelled.
- AppointmentEmail.Post: a body that is JSON `null` makes the destructuring of line 19 throw a TypeError. The model gives it the `None` body and so answers `UnreadableBody` rather than that TypeError's message; the status (500) and the empty list of sends are the same.
- `setInterval` timing and React's asynchronous batching are left out. The handlers run one after another, each on the latest state, so the stale `formData`/`errors` closures are not modelled.
- The `isOpen` prop and the parent's open/close state are left out. Events model what happens while the modal is shown; only `Settled` can arrive later.
- Lone surrogates are left out. A JSON string such as `"\ud800"` parses to one in JavaScript, but a Dafny `char` cannot hold it, so such payloads have no counterpart here.
- The browser's enforcement of `maxLength={14}` on typed or pasted input is left out. The formatter's own output never exceeds 14 characters.
- AppointmentForm.Step: the browser's constraint validation of the submit is left out. The form (components/AppointmentModal.tsx:281) has no `noValidate` and the email input (line 339) is `type="email"`, so an address that passes `validateEmail` but breaks the HTML email grammar, such as `a,b@c.de` or `a@b.c.`, stops the submission before `handleSubmit` runs; `Step` sends it instead. Every property proved of `Step` limits when a request is sent, so each still holds of the page.
- Framer-motion animations, JSX rendering and styling are left out as presentational. Two rendering facts are kept in `Step`: the form exists only while the success screen is hidden (line 220), and the submit button is disabled while submitting (line 440).
- Testimonials.Window: the testimonial quotes and images are not modelled, because they are display text. Entries are identified by author name.
- Testimonials.Window: the rotation is stated for the site's fixed list of six entries, not for a list of any length.

=== FILE: Appointment.dfy ===
/** The appointment request: six text fields, shared by the form
    (`formData`) and the email handler (the JSON body). */
module Appointment {

  datatype Field = Name | Email | Phone | InsuranceCarrier | InsuranceId | AppointmentRequest

  const AllFields: set<Field> := {Name, Email, Phone, InsuranceCarrier, InsuranceId, AppointmentRequest}

  lemma AllFieldsComplete(f: Field)
    ensures f in AllFields
  {
  }

  datatype Fields = Fields(
    name: string,
    email: string,
    phone: string,
    insuranceCarrier: string,
    insuranceId: string,
    appointmentRequest: string)
  {
    function Get(f: Field): string {
      match f
      case Name => name
      case Email => email
      case Phone => phone
      case InsuranceCarrier => insuranceCarrier
      case InsuranceId => insuranceId
      case AppointmentRequest => appointmentRequest
    }

    /** `{ ...formData, [f]: v }` */
    function Set(f: Field, v: string): (r: Fields)
      ensures r.Get(f) == v
      ensures forall g | g != f :: r.Get(g) == Get(g)
    {
      match f
      case Name => this.(name := v)
      case Email => this.(email := v)
      case Phone => this.(phone := v)
      case InsuranceCarrier => this.(insuranceCarrier := v)
      case InsuranceId => this.(insuranceId := v)
      case AppointmentRequest => this.(appointmentRequest := v)
    }
  }

  /** The initial (and reset) form contents: every field the empty string. */
  const EmptyFields := Fields("", "", "", "", "", "")
}

=== FILE: AppointmentEmail.dfy ===
/** The appointment email endpoint (app/api/send-appointment-email/route.ts,
    `POST`) as a pure function: from the JSON body and the configuration to
    the response and the ordered list of send attempts. Each send is a call
    of the `send` parameter, which returns `None` when the mail went out and
    `Some(message)` when it threw. The HTML and plaintext templates are
    modelled as the ordered list of values substituted into them. */
module AppointmentEmail {
  import opened Options
  import opened Text
  import opened Html
  import opened Appointment

  /** The destructured JSON body: `None` for a field that is absent or not
      a string. */
  datatype Payload = Payload(
    name: Option<string>,
    email: Option<string>,
    phone: Option<string>,
    insuranceCarrier: Option<string>,
    insuranceId: Option<string>,
    appointmentRequest: Option<string>)
  {
    function Get(f: Field): Option<string> {
      match f
      case Name => name
      case Email => email
      case Phone => phone
      case InsuranceCarrier => insuranceCarrier
      case InsuranceId => insuranceId
      case AppointmentRequest => appointmentRequest
    }
  }

  /** The environment settings the handler reads; `None` when unset. */
  datatype Config = Config(
    fromName: Option<string>,
    fromEmail: Option<string>,
    businessEmail: Option<string>)

  /** An environment setting that is unset or empty, so falsy in `||`. */
  predicate Unset(setting: Option<string>) {
    setting.None? || setting.value == ""
  }

  /** `value || fallback` for an environment setting. */
  function OrDefault(setting: Option<string>, fallback: string): (r: string)
    ensures !Unset(setting) ==> r == setting.value
    ensures Unset(setting) ==> r == fallback
  {
    if setting.Some? && setting.value != "" then setting.value else fallback
  }

  /** `if (process.env.BUSINESS_EMAIL)`: the same truthiness test as the
      `||` of the notification's recipient, so when it holds the notification
      goes to the configured address and the fallback is never used. */
  predicate BusinessConfigured(config: Config): (b: bool)
    ensures b ==> config.businessEmail.Some? && forall fallback ::
      OrDefault(config.businessEmail, fallback) == config.businessEmail.value
    ensures !b ==> forall fallback :: OrDefault(config.businessEmail, fallback) == fallback
  {
    config.businessEmail.Some? && config.businessEmail.value != ""
  }

  datatype Template = ConfirmationHtml | ConfirmationText | BusinessHtml | BusinessText

  /** A rendered template: which one, and the values put into its
      placeholders, in the order they appear. */
  datatype Document = Document(template: Template, slots: seq<string>)

  datatype Mail = Mail(from: string, to: string, subject: string, text: Document, html: Document)

  /** Why the handler answered 500. */
  datatype Failure =
    | UnreadableBody            // `request.json()` rejected, or the body is JSON `null`
    | NotAString(field: Field)  // `escapeHtml` of an absent or non-string field threw
    | SendFailed(message: string)

  datatype Response = Sent | MissingFields | Failed(details: Failure)

  function Status(r: Response): int {
    match r
    case Sent => 200
    case MissingFields => 400
    case Failed(_) => 500
  }

  datatype Handled = Handled(response: Response, attempts: seq<Mail>)

  /** The order of the `escapeHtml` calls. */
  const EscapeOrder: seq<Field> := [Name, Email, Phone, InsuranceCarrier, InsuranceId, AppointmentRequest]

  /** The first field, in escape order, that is not a string. */
  function FirstAbsent(p: Payload): (r: Option<Field>)
    ensures r.None? <==> forall f :: p.Get(f).Some?
    ensures r.Some? ==> p.Get(r.value).None?
    ensures r.Some? ==> forall k | 0 <= k < |EscapeOrder| && EscapeOrder[k] == r.value ::
      forall j | 0 <= j < k :: p.Get(EscapeOrder[j]).Some?
  {
    if p.Get(Name).None? then Some(Name)
    else if p.Get(Email).None? then Some(Email)
    else if p.Get(Phone).None? then Some(Phone)
    else if p.Get(InsuranceCarrier).None? then Some(InsuranceCarrier)
    else if p.Get(InsuranceId).None? then Some(InsuranceId)
    else if p.Get(AppointmentRequest).None? then Some(AppointmentRequest)
    else None
  }

  function Present(p: Payload): (v: Fields)
    requires forall f :: p.Get(f).Some?
    ensures forall f :: Some(v.Get(f)) == p.Get(f)
  {
    assert p.Get(Name).Some? && p.Get(Email).Some? && p.Get(Phone).Some?;
    assert p.Get(InsuranceCarrier).Some? && p.Get(InsuranceId).Some? && p.Get(AppointmentRequest).Some?;
    Fields(p.name.value, p.email.value, p.phone.value,
           p.insuranceCarrier.value, p.insuranceId.value, p.appointmentRequest.value)
  }

  /** `!name || !email || ...` on strings: some field is the empty string. */
  predicate AnyEmpty(v: Fields) {
    exists f :: v.Get(f) == ""
  }

  /** The `safe*` values, escaped to prevent XSS: each is safe to embed in
      HTML and still carries its field in full, since decoding the entities
      (and, for the request, the `<br>` tags) gives the field back. */
  function Sanitize(v: Fields): (s: Fields)
    ensures forall f :: HtmlSafe(s.Get(f))
    ensures forall f | f != AppointmentRequest :: UnescapeHtml(s.Get(f)) == v.Get(f)
    ensures UnescapeHtml(UnbreakLines(s.appointmentRequest)) == v.appointmentRequest
  {
    var s := Fields(EscapeHtml(v.name), EscapeHtml(v.email), EscapeHtml(v.phone),
                    EscapeHtml(v.insuranceCarrier), EscapeHtml(v.insuranceId),
                    SafeRequest(v.appointmentRequest));
    assert forall f | f != AppointmentRequest :: s.Get(f) == EscapeHtml(v.Get(f));
    assert forall f | f != AppointmentRequest ::
      HtmlSafe(s.Get(f)) && UnescapeHtml(s.Get(f)) == v.Get(f) by {
      forall f | f != AppointmentRequest
        ensures HtmlSafe(s.Get(f)) && UnescapeHtml(s.Get(f)) == v.Get(f)
      {
        EscapedIsHtmlSafe(v.Get(f));
        UnescapeEscape(v.Get(f));
      }
    }
    SafeRequestDecodes(v.appointmentRequest);
    s
  }

  /** The digits of the escaped phone: the target of the `tel:` links.
      Being digits only, it cannot leave the `href` attribute. */
  function TelTarget(safePhone: string): (r: string)
    ensures AllDigits(r) && |r| <= |safePhone|
    ensures HtmlSafe(r)
  {
    var r := Digits(safePhone);
    assert forall i | 0 <= i < |r| :: IsDigit(r[i]);
    r
  }

  const DefaultFromName := "Somerville Dental Associates"
  const DefaultFromEmail := "business@alexshick.com"
  const DefaultBusinessEmail := "somervilledental@verizon.net"
  const ConfirmationSubject := "Appointment Request Confirmation - Somerville Dental Associates"

  /** The sender, `"name" <address>`: the display name is the configured
      one when set and the practice's name otherwise, and the address is
      the configured one when set and the default sender otherwise. */
  function FromAddress(config: Config): (r: string)
    ensures var name := OrDefault(config.fromName, DefaultFromName);
      |name| + 1 <= |r| && r[1..|name| + 1] == name
    ensures var address := OrDefault(config.fromEmail, DefaultFromEmail);
      |address| + 1 <= |r| && r[|r| - |address| - 1..|r| - 1] == address
  {
    var name := OrDefault(config.fromName, DefaultFromName);
    var address := OrDefault(config.fromEmail, DefaultFromEmail);
    var head := "\"" + name + "\" <";
    var r := head + address + ">";
    assert r[1..|name| + 1] == head[1..|name| + 1] == name;
    assert r[|r| - |address| - 1..|r| - 1] == address;
    r
  }

  /** The `safe*` values field by field: each is safe to embed, and each
      but the request is the escaped field. */
  lemma SanitizedFields(raw: Fields)
    ensures var safe := Sanitize(raw);
      && HtmlSafe(safe.name) && HtmlSafe(safe.email) && HtmlSafe(safe.phone)
      && HtmlSafe(safe.insuranceCarrier) && HtmlSafe(safe.insuranceId)
      && HtmlSafe(safe.appointmentRequest)
      && safe.name == EscapeHtml(raw.name) && safe.email == EscapeHtml(raw.email)
      && safe.phone == EscapeHtml(raw.phone)
      && safe.insuranceCarrier == EscapeHtml(raw.insuranceCarrier)
      && safe.insuranceId == EscapeHtml(raw.insuranceId)
  {
    var safe := Sanitize(raw);
    assert safe.Get(Name) == safe.name && safe.Get(Email) == safe.email;
    assert safe.Get(Phone) == safe.phone && safe.Get(InsuranceCarrier) == safe.insuranceCarrier;
    assert safe.Get(InsuranceId) == safe.insuranceId;
    assert safe.Get(AppointmentRequest) == safe.appointmentRequest;
  }

  /** The values the confirmation's plaintext template shows, in order:
      the name twice, then email, phone, carrier, member ID and the request
      as given. */
  function ConfirmationTextSlots(safe: Fields, request: string): seq<string> {
    [safe.name, safe.name, safe.email, safe.phone, safe.insuranceCarrier, safe.insuranceId, request]
  }

  /** The values the confirmation's HTML template shows, in order. */
  function ConfirmationHtmlSlots(safe: Fields): seq<string> {
    [safe.name, safe.name, safe.email, safe.phone,
     safe.insuranceCarrier, safe.insuranceId, safe.appointmentRequest]
  }

  /** The values the notification's plaintext template shows, in order:
      the fields, the request as given, then the email and phone again as
      the quick actions. */
  function BusinessTextSlots(safe: Fields, request: string): seq<string> {
    [safe.name, safe.email, safe.phone, safe.insuranceCarrier,
     safe.insuranceId, request, safe.email, safe.phone]
  }

  /** The values the notification's HTML template shows, in order; the
      `mailto:` and `tel:` targets come before the texts of their links. */
  function BusinessHtmlSlots(safe: Fields): seq<string> {
    var tel := TelTarget(safe.phone);
    [safe.name, safe.email, safe.email, tel, safe.phone,
     safe.insuranceCarrier, safe.insuranceId, safe.appointmentRequest,
     safe.email, tel]
  }

  /** Each template shows every field: the HTML ones each `safe*` value
      (the notification the `tel:` target too), the plaintext ones each
      `safe*` value but the request, and the request as given. */
  lemma SlotsShowFields(safe: Fields, request: string)
    ensures forall f :: safe.Get(f) in ConfirmationHtmlSlots(safe) && safe.Get(f) in BusinessHtmlSlots(safe)
    ensures TelTarget(safe.phone) in BusinessHtmlSlots(safe)
    ensures forall f | f != AppointmentRequest ::
      safe.Get(f) in ConfirmationTextSlots(safe, request) && safe.Get(f) in BusinessTextSlots(safe, request)
    ensures request in ConfirmationTextSlots(safe, request) && request in BusinessTextSlots(safe, request)
  {
    var ch, bh := ConfirmationHtmlSlots(safe), BusinessHtmlSlots(safe);
    var ct, bt := ConfirmationTextSlots(safe, request), BusinessTextSlots(safe, request);
    assert bh[3] == TelTarget(safe.phone) && ct[6] == request && bt[5] == request;
    forall f
      ensures safe.Get(f) in ch && safe.Get(f) in bh
      ensures f != AppointmentRequest ==> safe.Get(f) in ct && safe.Get(f) in bt
    {
      match f
      case Name => assert ch[0] == bh[0] == ct[0] == bt[0] == safe.name;
      case Email => assert ch[2] == bh[1] == ct[2] == bt[1] == safe.email;
      case Phone => assert ch[3] == bh[4] == ct[3] == bt[2] == safe.phone;
      case InsuranceCarrier => assert ch[4] == bh[5] == ct[4] == bt[3] == safe.insuranceCarrier;
      case InsuranceId => assert ch[5] == bh[6] == ct[5] == bt[4] == safe.insuranceId;
      case AppointmentRequest => assert ch[6] == bh[7] == safe.appointmentRequest;
    }
  }

  /** Filled from the submitted fields, the confirmation's HTML values are
      safe to embed and its plaintext values are the request as typed and
      each other field escaped. */
  lemma ConfirmationSlotsSafe(raw: Fields)
    ensures var safe := Sanitize(raw);
      && (forall k | 0 <= k < |ConfirmationHtmlSlots(safe)| :: HtmlSafe(ConfirmationHtmlSlots(safe)[k]))
      && PlaintextSlots(raw, ConfirmationTextSlots(safe, raw.appointmentRequest))
  {
    var safe := Sanitize(raw);
    SanitizedFields(raw);
    var text := ConfirmationTextSlots(safe, raw.appointmentRequest);
    var html := ConfirmationHtmlSlots(safe);
    assert forall x | x in html :: HtmlSafe(x);
    assert text[6] == raw.appointmentRequest;
    assert text[0] == EscapeHtml(raw.name) && text[2] == EscapeHtml(raw.email);
    assert text[3] == EscapeHtml(raw.phone) && text[4] == EscapeHtml(raw.insuranceCarrier);
    assert text[5] == EscapeHtml(raw.insuranceId);
  }

  /** Filled from the submitted fields, the notification's HTML values,
      the `tel:` targets included, are safe to embed and its plaintext values
      are the request as typed and each other field escaped. */
  lemma BusinessSlotsSafe(raw: Fields)
    ensures var safe := Sanitize(raw);
      && (forall k | 0 <= k < |BusinessHtmlSlots(safe)| :: HtmlSafe(BusinessHtmlSlots(safe)[k]))
      && PlaintextSlots(raw, BusinessTextSlots(safe, raw.appointmentRequest))
  {
    var safe := Sanitize(raw);
    SanitizedFields(raw);
    var text := BusinessTextSlots(safe, raw.appointmentRequest);
    var html := BusinessHtmlSlots(safe);
    assert forall x | x in html :: HtmlSafe(x);
    assert text[5] == raw.appointmentRequest;
    assert text[0] == EscapeHtml(raw.name) && text[1] == EscapeHtml(raw.email);
    assert text[2] == EscapeHtml(raw.phone) && text[3] == EscapeHtml(raw.insuranceCarrier);
    assert text[4] == EscapeHtml(raw.insuranceId);
  }

  /** The confirmation to the requester, addressed to the raw `email`.
      Every value in its HTML is safe to embed; its plaintext carries the
      request as typed and otherwise escaped fields. */
  function ConfirmationMail(config: Config, raw: Fields): (m: Mail)
    ensures m.to == raw.email && m.html.template == ConfirmationHtml
    ensures forall k | 0 <= k < |m.html.slots| :: HtmlSafe(m.html.slots[k])
    ensures PlaintextSlots(raw, m.text.slots)
  {
    var safe := Sanitize(raw);
    var text := ConfirmationTextSlots(safe, raw.appointmentRequest);
    var html := ConfirmationHtmlSlots(safe);
    ConfirmationSlotsSafe(raw);
    Mail(FromAddress(config), raw.email, ConfirmationSubject,
         Document(ConfirmationText, text), Document(ConfirmationHtml, html))
  }

  /** The notification to the practice, sent to the configured address
      when there is one. Every value in its HTML, the `tel:` targets
      included, is safe to embed; its plaintext carries the request as typed
      and otherwise escaped fields. */
  function BusinessMail(config: Config, raw: Fields): (m: Mail)
    ensures BusinessConfigured(config) ==> m.to == config.businessEmail.value
    ensures m.html.template == BusinessHtml
    ensures forall k | 0 <= k < |m.html.slots| :: HtmlSafe(m.html.slots[k])
    ensures PlaintextSlots(raw, m.text.slots)
  {
    var safe := Sanitize(raw);
    var text := BusinessTextSlots(safe, raw.appointmentRequest);
    var html := BusinessHtmlSlots(safe);
    BusinessSlotsSafe(raw);
    Mail(
      FromAddress(config),
      OrDefault(config.businessEmail, DefaultBusinessEmail),
      "New Appointment Request from " + safe.name + " - " + safe.phone,
      Document(BusinessText, text),
      Document(BusinessHtml, html))
  }

  /** The escaped forms of the fields but the request are the `safe*`
      values. */
  lemma SanitizedGet(raw: Fields)
    ensures forall f | f != AppointmentRequest :: Sanitize(raw).Get(f) == EscapeHtml(raw.Get(f))
  {
    SanitizedFields(raw);
  }

  /** The confirmation shows every submitted field: its HTML carries each
      sanitized value, its plaintext each field escaped, except the request,
      which it carries as typed. */
  lemma ConfirmationEmbedsFields(config: Config, raw: Fields)
    ensures var m := ConfirmationMail(config, raw);
      && (forall f :: Sanitize(raw).Get(f) in m.html.slots)
      && (forall f | f != AppointmentRequest :: EscapeHtml(raw.Get(f)) in m.text.slots)
      && raw.appointmentRequest in m.text.slots
  {
    SlotsShowFields(Sanitize(raw), raw.appointmentRequest);
    SanitizedGet(raw);
  }

  /** The notification shows every submitted field: its HTML carries each
      sanitized value and the digits of the phone as the `tel:` target, its
      plaintext each field escaped, except the request, carried as typed. */
  lemma BusinessEmbedsFields(config: Config, raw: Fields)
    ensures var m := BusinessMail(config, raw);
      && (forall f :: Sanitize(raw).Get(f) in m.html.slots)
      && TelTarget(EscapeHtml(raw.phone)) in m.html.slots
      && (forall f | f != AppointmentRequest :: EscapeHtml(raw.Get(f)) in m.text.slots)
      && raw.appointmentRequest in m.text.slots
  {
    SlotsShowFields(Sanitize(raw), raw.appointmentRequest);
    SanitizedGet(raw);
  }

  /** The two sends: the confirmation, then, if it went out and a business
      address is set, the notification. The first failure ends the handler. */
  function Dispatch(config: Config, raw: Fields, send: Mail -> Option<string>): (h: Handled)
    ensures 1 <= |h.attempts| <= 2 && h.attempts[0] == ConfirmationMail(config, raw)
    ensures |h.attempts| == 2 <==> send(h.attempts[0]).None? && BusinessConfigured(config)
    ensures |h.attempts| == 2 ==> h.attempts[1] == BusinessMail(config, raw)
    ensures h.response == Sent <==> forall i | 0 <= i < |h.attempts| :: send(h.attempts[i]).None?
    ensures h.response != Sent ==>
      send(h.attempts[|h.attempts| - 1]).Some?
      && h.response == Failed(SendFailed(send(h.attempts[|h.attempts| - 1]).value))
  {
    var first := ConfirmationMail(config, raw);
    match send(first)
    case Some(message) => Handled(Failed(SendFailed(message)), [first])
    case None =>
      if !BusinessConfigured(config) then Handled(Sent, [first])
      else
        var second := BusinessMail(config, raw);
        match send(second)
        case Some(message) => Handled(Failed(SendFailed(message)), [first, second])
        case None => Handled(Sent, [first, second])
  }

  /** `POST`. `body` is `None` when the request body is not JSON, and also
      when it is JSON `null`: destructuring `null` throws before any escape,
      which is the same 500 with nothing sent. Any other JSON value is a
      `Payload`, its missing or non-string properties `None`. */
  function Post(body: Option<Payload>, config: Config, send: Mail -> Option<string>): (h: Handled)
    // an unreadable body is a 500 and sends nothing
    ensures body.None? ==> h == Handled(Failed(UnreadableBody), [])
    // 400 exactly when every field is a string and one of them is empty, and then nothing is sent
    ensures Status(h.response) == 400 ==> h.attempts == []
    ensures Status(h.response) == 400 <==>
      body.Some? && (forall f :: body.value.Get(f).Some?) && (exists f :: body.value.Get(f) == Some(""))
    // a missing field is reported as the 500 of the first escape that throws
    ensures body.Some? && FirstAbsent(body.value).Some? ==>
      h == Handled(Failed(NotAString(FirstAbsent(body.value).value)), [])
    // six non-empty strings are always mailed: the confirmation goes first
    ensures body.Some? && FirstAbsent(body.value).None? && !AnyEmpty(Present(body.value)) ==>
      h.attempts != [] && h.attempts[0] == ConfirmationMail(config, Present(body.value))
    // at most two sends: the confirmation to the requester first ...
    ensures |h.attempts| <= 2
    ensures h.attempts != [] ==>
      && body.Some? && body.value.email.Some?
      && h.attempts[0].to == body.value.email.value
      && h.attempts[0].html.template == ConfirmationHtml
    // ... the notification only after it went out, and only when configured
    ensures |h.attempts| == 2 ==>
      && send(h.attempts[0]).None?
      && BusinessConfigured(config)
      && h.attempts[1].to == config.businessEmail.value
      && h.attempts[1].html.template == BusinessHtml
    // success exactly when something was sent and every send went out
    ensures h.response == Sent <==>
      h.attempts != [] && forall i | 0 <= i < |h.attempts| :: send(h.attempts[i]).None?
    ensures h.response == Sent ==> |h.attempts| == (if BusinessConfigured(config) then 2 else 1)
    // a send error is reported with its own message, from the last attempt
    ensures h.response.Failed? && h.response.details.SendFailed? ==>
      h.attempts != [] && send(h.attempts[|h.attempts| - 1]) == Some(h.response.details.message)
  {
    match body
    case None => Handled(Failed(UnreadableBody), [])
    case Some(p) =>
      match FirstAbsent(p)
      case Some(f) => Handled(Failed(NotAString(f)), [])
      case None =>
        var raw := Present(p);
        if AnyEmpty(raw) then Handled(MissingFields, [])
        else Dispatch(config, raw, send)
  }

  /** The mails the handler can attempt: the confirmation and the
      notification built from the submitted fields. */
  lemma {:induction false} PostAttempts(body: Option<Payload>, config: Config, send: Mail -> Option<string>)
    ensures var h := Post(body, config, send);
      h.attempts != [] ==>
        && body.Some? && FirstAbsent(body.value).None?
        && var raw := Present(body.value);
        && h.attempts[0] == ConfirmationMail(config, raw)
        && (|h.attempts| == 2 ==> h.attempts[1] == BusinessMail(config, raw))
  {
  }

  /** A failed send is reported as itself: the 500 carries the message of
      the attempt that threw, never another failure. */
  lemma PostReportsSendError(body: Option<Payload>, config: Config, send: Mail -> Option<string>)
    ensures var h := Post(body, config, send);
      h.attempts != [] && h.response != Sent ==>
        h.response == Failed(SendFailed(send(h.attempts[|h.attempts| - 1]).value))
  {
  }

  /** Every value placed into either HTML document of any attempt is safe
      to embed: no tag but `<br>`, no quote. */
  lemma PostHtmlSafe(body: Option<Payload>, config: Config, send: Mail -> Option<string>)
    ensures var h := Post(body, config, send);
      forall i, k | 0 <= i < |h.attempts| && 0 <= k < |h.attempts[i].html.slots| ::
        HtmlSafe(h.attempts[i].html.slots[k])
  {
    var h := Post(body, config, send);
    PostAttempts(body, config, send);
    if h.attempts != [] {
      AttemptsHtmlSafe(config, Present(body.value), h.attempts);
    }
  }

  /** The attempts a submission can produce, as the handler builds them. */
  predicate AttemptsOf(config: Config, raw: Fields, attempts: seq<Mail>) {
    && 1 <= |attempts| <= 2
    && attempts[0] == ConfirmationMail(config, raw)
    && (|attempts| == 2 ==> attempts[1] == BusinessMail(config, raw))
  }

  lemma AttemptsHtmlSafe(config: Config, raw: Fields, attempts: seq<Mail>)
    requires AttemptsOf(config, raw, attempts)
    ensures forall i, k | 0 <= i < |attempts| && 0 <= k < |attempts[i].html.slots| ::
      HtmlSafe(attempts[i].html.slots[k])
  {
    forall i | 0 <= i < |attempts|
      ensures forall k | 0 <= k < |attempts[i].html.slots| :: HtmlSafe(attempts[i].html.slots[k])
    {
      if i == 0 {
        assert attempts[i] == ConfirmationMail(config, raw);
      } else {
        assert attempts[i] == BusinessMail(config, raw);
      }
    }
  }

  lemma AttemptsPlaintextSlots(config: Config, raw: Fields, attempts: seq<Mail>)
    requires AttemptsOf(config, raw, attempts)
    ensures forall i | 0 <= i < |attempts| :: PlaintextSlots(raw, attempts[i].text.slots)
  {
    forall i | 0 <= i < |attempts|
      ensures PlaintextSlots(raw, attempts[i].text.slots)
    {
      if i == 0 {
        assert attempts[i] == ConfirmationMail(config, raw);
      } else {
        assert attempts[i] == BusinessMail(config, raw);
      }
    }
  }

  /** The escaped forms of the five fields other than the request. */
  function EscapedFields(raw: Fields): set<string> {
    {EscapeHtml(raw.name), EscapeHtml(raw.email), EscapeHtml(raw.phone),
     EscapeHtml(raw.insuranceCarrier), EscapeHtml(raw.insuranceId)}
  }

  /** The plaintext slots of one mail: the request as typed and every other
      field escaped, and nothing else. */
  predicate PlaintextSlots(raw: Fields, text: seq<string>) {
    && raw.appointmentRequest in text
    && (forall x | x in EscapedFields(raw) :: x in text)
    && forall k | 0 <= k < |text| :: text[k] == raw.appointmentRequest || text[k] in EscapedFields(raw)
  }

  /** The plaintext bodies carry the request exactly as typed, and every
      other field in its escaped form. */
  lemma PostPlaintextSlots(body: Option<Payload>, config: Config, send: Mail -> Option<string>)
    ensures var h := Post(body, config, send);
      forall i | 0 <= i < |h.attempts| :: PlaintextSlots(Present(body.value), h.attempts[i].text.slots)
  {
    var h := Post(body, config, send);
    PostAttempts(body, config, send);
    if h.attempts != [] {
      AttemptsPlaintextSlots(config, Present(body.value), h.attempts);
    }
  }

  lemma EscapeCharDigits(c: char)
    requires c != '\''
    ensures Digits(EscapeChar(c)) == Digits([c])
  {
    if Special(c) {
      DigitsOfNoDigits(EscapeChar(c));
      DigitsOfNoDigits([c]);
    }
  }

  /** Escaping adds no digit to a text without apostrophes. */
  lemma {:induction false} EscapeKeepsDigits(s: string)
    requires forall i | 0 <= i < |s| :: s[i] != '\''
    ensures Digits(EscapeHtml(s)) == Digits(s)
  {
    if s != [] {
      DigitsAppend(EscapeChar(s[0]), EscapeHtml(s[1..]));
      EscapeCharDigits(s[0]);
      EscapeKeepsDigits(s[1..]);
      DigitsAppend([s[0]], s[1..]);
      assert [s[0]] + s[1..] == s;
    }
  }

  /** The `tel:` target is the digits of the phone as submitted, unless the
      phone holds an apostrophe. */
  lemma TelTargetIsPhoneDigits(phone: string)
    requires forall i | 0 <= i < |phone| :: phone[i] != '\''
    ensures TelTarget(EscapeHtml(phone)) == Digits(phone)
  {
    EscapeKeepsDigits(phone);
  }

  lemma ApostropheEntityDigits()
    ensures Digits(EscapeHtml("'")) == "039"
  {
    var e := EscapeHtml("'");
    assert e == EscapeChar('\'') + EscapeHtml([]);
    var amp, code, semi := "&#", "039", ";";
    assert e == amp + code + semi;
    DigitsAppend(amp + code, semi);
    DigitsAppend(amp, code);
    DigitsOfNoDigits(amp);
    DigitsOfAllDigits(code);
    DigitsOfNoDigits(semi);
    assert [] + code + [] == code;
  }

  /** An apostrophe puts the digits of `&#039;` into the `tel:` target. */
  lemma TelTargetApostrophe(before: string, after: string)
    ensures TelTarget(EscapeHtml(before + "'" + after))
         == TelTarget(EscapeHtml(before)) + "039" + TelTarget(EscapeHtml(after))
  {
    var x, q, y := EscapeHtml(before), EscapeHtml("'"), EscapeHtml(after);
    assert EscapeHtml(before + "'" + after) == x + q + y by {
      EscapeAppend(before + "'", after);
      EscapeAppend(before, "'");
    }
    assert Digits(x + q + y) == Digits(x) + Digits(q) + Digits(y) by {
      DigitsAppend(x + q, y);
      DigitsAppend(x, q);
    }
    ApostropheEntityDigits();
  }

  /** A tag around plain text is neutralised: `<t>` becomes `&lt;t&gt;`. */
  lemma EscapeTag(t: string)
    requires NoSpecial(t)
    ensures EscapeHtml("<" + t + ">") == "&lt;" + t + "&gt;"
  {
    EscapeAppend("<" + t, ">");
    EscapeAppend("<", t);
    EscapePlain(t);
    assert EscapeHtml("<") == "&lt;" by {
      assert EscapeHtml("<") == EscapeChar('<') + EscapeHtml([]);
    }
    assert EscapeHtml(">") == "&gt;" by {
      assert EscapeHtml(">") == EscapeChar('>') + EscapeHtml([]);
    }
  }

  /** A two-line request becomes the two lines joined by `<br>` in HTML. */
  lemma TwoLineRequest(line1: string, line2: string)
    requires NoSpecial(line1) && NoSpecial(line2)
    requires forall i | 0 <= i < |line1| :: line1[i] != '\n'
    requires forall i | 0 <= i < |line2| :: line2[i] != '\n'
    ensures SafeRequest(line1 + "\n" + line2) == line1 + "<br>" + line2
  {
    var s := line1 + "\n" + line2;
    EscapeAppend(line1 + "\n", line2);
    EscapeAppend(line1, "\n");
    EscapePlain(line1);
    EscapePlain(line2);
    assert EscapeHtml("\n") == "\n" by {
      assert EscapeHtml("\n") == EscapeChar('\n') + EscapeHtml([]);
    }
    BreakLinesAppend(line1 + "\n", line2);
    BreakLinesAppend(line1, "\n");
    BreakLinesPlain(line1);
    BreakLinesPlain(line2);
    assert BreakLines("\n") == "<br>" by {
      assert BreakLines("\n") == "<br>" + BreakLines([]);
    }
  }

  /** Whitespace does not count as empty for the server's presence check. */
  lemma WhitespaceFieldsPass(config: Config, send: Mail -> Option<string>)
    ensures var p := Payload(Some(" "), Some(" "), Some(" "), Some(" "), Some(" "), Some(" "));
      Post(Some(p), config, send).attempts != []
  {
    var p := Payload(Some(" "), Some(" "), Some(" "), Some(" "), Some(" "), Some(" "));
    assert forall f :: p.Get(f) == Some(" ");
  }
}

=== FILE: AppointmentForm.dfy ===
/** The appointment modal's form controller (components/AppointmentModal.tsx):
    the form contents, the per-field error messages, and the `isSubmitting`
    and `showSuccess` flags, driven by `handleChange`, `handleBlur`,
    `handleSubmit` and `handleClose`. React's state updates are modelled as
    pure transitions from one state record to the next; the network call is
    an event that starts when a submission passes validation and an event
    that later settles it. */
module AppointmentForm {
  import opened Options
  import opened Text
  import opened PhoneNumber
  import opened EmailAddress
  import opened Appointment

  /** `errors`: field name to message; the empty string counts as no error. */
  type Errors = map<Field, string>

  /** `errors[f]` is truthy. */
  predicate HasError(errors: Errors, f: Field) {
    f in errors && errors[f] != ""
  }

  datatype ModalState = ModalState(
    form: Fields,
    errors: Errors,
    showSuccess: bool,
    isSubmitting: bool)

  const Initial := ModalState(EmptyFields, map[], false, false)

  /** The phone field holds a value the formatter leaves unchanged. */
  predicate PhoneFormatted(st: ModalState) {
    FormatPhone(st.form.phone) == st.form.phone
  }

  /** The message for a blank field; never empty. */
  function RequiredMessage(f: Field): (m: string)
    ensures m != ""
  {
    match f
    case Name => "Name is required."
    case Email => "Email is required."
    case Phone => "Phone is required."
    case InsuranceCarrier => "Insurance carrier is required."
    case InsuranceId => "Insurance ID is required."
    case AppointmentRequest => "Appointment request is required."
  }

  const InvalidEmailMessage := "Please enter a valid email address."
  const InvalidPhoneMessage := "Please enter a valid phone number."

  /** Each field has its own required message, and none reads like a
      malformed-value message, so a missing value is told apart from a wrong
      one and one field from another. */
  lemma RequiredMessageDistinct(f: Field, g: Field)
    ensures RequiredMessage(f) == RequiredMessage(g) <==> f == g
    ensures RequiredMessage(f) != InvalidEmailMessage && RequiredMessage(f) != InvalidPhoneMessage
  {
  }

  /** The value passes both blur and submit validation for its field. */
  predicate FieldValid(f: Field, v: string) {
    && !IsBlank(v)
    && (f == Email ==> ValidateEmail(v))
    && (f == Phone ==> ValidatePhone(v))
  }

  /** The message blur and submit validation record for field `f` holding
      `v`, or "" when there is nothing to report. A blank value always gets
      the field's required message, before any format check. */
  function FieldError(f: Field, v: string): (m: string)
    ensures m == "" <==> FieldValid(f, v)
    ensures IsBlank(v) ==> m == RequiredMessage(f)
    ensures m in {"", RequiredMessage(f), InvalidEmailMessage, InvalidPhoneMessage}
  {
    if IsBlank(v) then RequiredMessage(f)
    else if f == Email && !ValidateEmail(v) then InvalidEmailMessage
    else if f == Phone && !ValidatePhone(v) then InvalidPhoneMessage
    else ""
  }

  /** Submittable: no field is blank after trimming, the email has the
      expected shape and the phone holds ten digits. */
  predicate FormValid(form: Fields) {
    && (forall f :: !IsBlank(form.Get(f)))
    && ValidateEmail(form.email)
    && ValidatePhone(form.phone)
  }

  /** `newErrors` of `handleSubmit`: one entry per failing field. */
  function ValidationErrors(form: Fields): (errs: Errors)
    ensures forall f :: f in errs <==> !FieldValid(f, form.Get(f))
    ensures forall f | f in errs :: errs[f] == FieldError(f, form.Get(f)) && errs[f] != ""
  {
    assert forall f :: f in AllFields by {
      forall f: Field {
        AllFieldsComplete(f);
      }
    }
    map f | f in AllFields && FieldError(f, form.Get(f)) != "" :: FieldError(f, form.Get(f))
  }

  /** Every field valid is the same as the form being submittable. */
  lemma AllFieldsValidIff(form: Fields)
    ensures (forall f :: FieldValid(f, form.Get(f))) <==> FormValid(form)
  {
    if forall f :: FieldValid(f, form.Get(f)) {
      assert FieldValid(Email, form.Get(Email));
      assert FieldValid(Phone, form.Get(Phone));
    }
  }

  /** The new error map is empty exactly when the form is submittable. */
  lemma ValidationErrorsEmptyIff(form: Fields)
    ensures ValidationErrors(form) == map[] <==> FormValid(form)
  {
    var errs := ValidationErrors(form);
    AllFieldsValidIff(form);
    if errs == map[] {
      forall f
        ensures FieldValid(f, form.Get(f))
      {
        assert f !in errs;
      }
    } else {
      var f :| f in errs;
      assert !FieldValid(f, form.Get(f));
    }
  }

  /** `handleChange`: store the (for the phone, formatted) value, and clear
      the field's error if one is shown. */
  function HandleChange(st: ModalState, f: Field, value: string): (r: ModalState)
    ensures r.form.Get(f) == (if f == Phone then FormatPhone(value) else value)
    ensures forall g | g != f :: r.form.Get(g) == st.form.Get(g)
    ensures !HasError(r.errors, f)
    ensures r.errors.Keys == st.errors.Keys
    ensures forall g | g != f && g in st.errors :: r.errors[g] == st.errors[g]
    ensures r.showSuccess == st.showSuccess && r.isSubmitting == st.isSubmitting
    ensures PhoneFormatted(st) || f == Phone ==> PhoneFormatted(r)
  {
    FormatPhoneIdempotent(value);
    var formatted := if f == Phone then FormatPhone(value) else value;
    var errors := if HasError(st.errors, f) then st.errors[f := ""] else st.errors;
    st.(form := st.form.Set(f, formatted), errors := errors)
  }

  /** `handleBlur`: validate the field's value and record a message when it
      fails; a passing value leaves the error map as it was. */
  function HandleBlur(st: ModalState, f: Field, value: string): (r: ModalState)
    ensures !FieldValid(f, value) ==> r.errors == st.errors[f := FieldError(f, value)]
    ensures FieldValid(f, value) ==> r.errors == st.errors
    ensures r.form == st.form && r.showSuccess == st.showSuccess && r.isSubmitting == st.isSubmitting
  {
    var error := FieldError(f, value);
    if error != "" then st.(errors := st.errors[f := error]) else st
  }

  /** Blur validation only ever adds an error: every error shown before
      is still shown and other fields keep their messages. */
  lemma BlurOnlyAdds(st: ModalState, f: Field, value: string)
    ensures var r := HandleBlur(st, f, value);
      && st.errors.Keys <= r.errors.Keys <= st.errors.Keys + {f}
      && (forall g | HasError(st.errors, g) :: HasError(r.errors, g))
      && (forall g | g != f && g in st.errors :: r.errors[g] == st.errors[g])
  {
    if !FieldValid(f, value) {
      RecordOnlyAdds(st.errors, f, FieldError(f, value));
    }
  }

  /** Recording a non-empty message keeps every other entry and every
      error already shown. */
  lemma RecordOnlyAdds(errors: Errors, f: Field, e: string)
    requires e != ""
    ensures var r := errors[f := e];
      && r.Keys == errors.Keys + {f}
      && (forall g | HasError(errors, g) :: HasError(r, g))
      && (forall g | g != f && g in errors :: r[g] == errors[g])
  {
  }

  /** After a blur the field shows an error exactly when its value fails
      validation or it already showed one. */
  lemma BlurErrorIff(st: ModalState, f: Field, value: string)
    ensures HasError(HandleBlur(st, f, value).errors, f) <==> !FieldValid(f, value) || HasError(st.errors, f)
  {
    var e := FieldError(f, value);
    assert e != "" <==> !FieldValid(f, value);
  }

  /** A transition, with the payload it hands to the transport, if any. */
  datatype Transition = Transition(state: ModalState, request: Option<Fields>)

  /** `handleSubmit` up to the network call: re-validate every field from
      scratch; on failure replace the error map and stop, otherwise raise
      `isSubmitting` and send the current form contents. */
  function HandleSubmit(st: ModalState): (r: Transition)
    ensures r.request.Some? <==> FormValid(st.form)
    ensures r.request.Some? ==> r.request.value == st.form && r.state == st.(isSubmitting := true)
    ensures r.request.None? ==>
      && r.state == st.(errors := ValidationErrors(st.form))
      && r.state.errors != map[]
    ensures forall f | IsBlank(st.form.Get(f)) ::
      r.request.None? && r.state.errors[f] == RequiredMessage(f)
  {
    var newErrors := ValidationErrors(st.form);
    ValidationErrorsEmptyIff(st.form);
    if newErrors != map[] then Transition(st.(errors := newErrors), None)
    else Transition(st.(isSubmitting := true), Some(st.form))
  }

  /** How the transport call ended: a success response, or anything that
      throws (a non-ok status, an unreadable body, a network failure). */
  datatype Outcome = Delivered | Failed(message: string)

  /** The `try`/`catch`/`finally` tail of `handleSubmit`: both branches show
      the success screen and `finally` lowers `isSubmitting`. */
  function HandleSettled(st: ModalState, outcome: Outcome): (r: ModalState)
    ensures r.showSuccess && !r.isSubmitting
    ensures r.form == st.form && r.errors == st.errors
  {
    match outcome
    case Delivered => st.(showSuccess := true, isSubmitting := false)
    case Failed(_) => st.(showSuccess := true, isSubmitting := false)
  }

  /** A failed delivery is indistinguishable, to the user, from a good one. */
  lemma SettledIgnoresOutcome(st: ModalState, a: Outcome, b: Outcome)
    ensures HandleSettled(st, a) == HandleSettled(st, b)
  {
  }

  /** `handleClose`: empty every field, drop every error and leave the
      success screen; a submission in flight stays in flight. */
  function HandleClose(st: ModalState): (r: ModalState)
    ensures forall f :: r.form.Get(f) == ""
    ensures r.errors == map[] && !r.showSuccess
    ensures r.isSubmitting == st.isSubmitting
  {
    ModalState(EmptyFields, map[], false, st.isSubmitting)
  }

  /** Closing twice is closing once, and closing an idle modal restores the
      initial state. */
  lemma CloseIdempotent(st: ModalState)
    ensures HandleClose(HandleClose(st)) == HandleClose(st)
    ensures !st.isSubmitting ==> HandleClose(st) == Initial
  {
  }

  /** What the user (or the network) can do to the modal. */
  datatype Event =
    | Changed(field: Field, value: string)
    | Blurred(field: Field)
    | Submitted
    | Settled(outcome: Outcome)
    | Closed

  /** One event. The form's inputs and submit button exist only while the
      success screen is hidden, the submit button is disabled while
      `isSubmitting`, a blur validates the input's current value, and a
      settle can only follow a submission in flight. */
  function Step(st: ModalState, e: Event): (r: Transition)
    ensures r.request.Some? ==>
      && FormValid(r.request.value) && r.request.value == st.form
      && !st.isSubmitting && r.state.isSubmitting
    ensures PhoneFormatted(st) ==> PhoneFormatted(r.state)
  {
    match e
    case Changed(f, v) =>
      Transition(if st.showSuccess then st else HandleChange(st, f, v), None)
    case Blurred(f) =>
      Transition(if st.showSuccess then st else HandleBlur(st, f, st.form.Get(f)), None)
    case Submitted =>
      if st.showSuccess || st.isSubmitting then Transition(st, None) else HandleSubmit(st)
    case Settled(o) =>
      Transition(if st.isSubmitting then HandleSettled(st, o) else st, None)
    case Closed =>
      Transition(HandleClose(st), None)
  }

  /** The state after a sequence of events, and every payload handed to the
      transport along the way, in order. */
  datatype Trace = Trace(final: ModalState, requests: seq<Fields>)

  function Run(st: ModalState, events: seq<Event>): (r: Trace)
    ensures PhoneFormatted(st) ==> PhoneFormatted(r.final)
    ensures forall i | 0 <= i < |r.requests| :: FormValid(r.requests[i])
    decreases |events|
  {
    if events == [] then Trace(st, [])
    else
      var t := Step(st, events[0]);
      var rest := Run(t.state, events[1..]);
      var sent := if t.request.Some? then [t.request.value] else [];
      Trace(rest.final, sent + rest.requests)
  }

  /** From the initial state, the phone field always holds a formatted value,
      and every payload sent carries a fully punctuated `(DDD) DDD-DDDD`
      phone number. */
  lemma RunFromInitial(events: seq<Event>)
    ensures PhoneFormatted(Run(Initial, events).final)
    ensures forall i | 0 <= i < |Run(Initial, events).requests| ::
      |Run(Initial, events).requests[i].phone| == MaxLength && FitsMask(Run(Initial, events).requests[i].phone)
  {
    assert Digits("") == "";
    RunRequestsFormatted(Initial, events);
    var reqs := Run(Initial, events).requests;
    forall i | 0 <= i < |reqs|
      ensures |reqs[i].phone| == MaxLength && FitsMask(reqs[i].phone)
    {
      ValidFormattedPhoneFillsMask(reqs[i].phone);
    }
  }

  /** Payloads sent from a state with a formatted phone carry a formatted phone. */
  lemma {:induction false} RunRequestsFormatted(st: ModalState, events: seq<Event>)
    requires PhoneFormatted(st)
    ensures forall i | 0 <= i < |Run(st, events).requests| ::
      FormatPhone(Run(st, events).requests[i].phone) == Run(st, events).requests[i].phone
    decreases |events|
  {
    if events != [] {
      var t := Step(st, events[0]);
      RunRequestsFormatted(t.state, events[1..]);
    }
  }

  /** Closing the modal while a submission is in flight does not cancel it:
      when the call settles, the emptied form switches to the success
      screen. */
  lemma SettleAfterClose(st: ModalState, o: Outcome)
    requires st.isSubmitting
    ensures var r := Run(st, [Closed, Settled(o)]).final;
      r.showSuccess && !r.isSubmitting && r.form == EmptyFields && r.errors == map[]
  {
    var s1 := Step(st, Closed).state;
    assert [Closed, Settled(o)][1..] == [Settled(o)];
    assert Run(s1, [Settled(o)]).final == Step(s1, Settled(o)).state;
  }
}

=== FILE: EmailAddress.dfy ===
/** The email-shape check of the appointment form
    (components/AppointmentModal.tsx, `validateEmail`). */
module EmailAddress {
  import opened Text

  /** A character of the class `[^\s@]`. */
  predicate PlainChar(c: char) {
    !IsSpace(c) && c != '@'
  }

  /** A match of `[^\s@]+`. */
  predicate PlainRun(t: string) {
    |t| > 0 && forall i | 0 <= i < |t| :: PlainChar(t[i])
  }

  /** The pattern `^[^\s@]+@[^\s@]+\.[^\s@]+$` read literally: some `@` and
      some later `.` split `s` into three non-empty runs of plain characters. */
  ghost predicate MatchesEmailPattern(s: string) {
    exists at, dot | 0 <= at < dot < |s| ::
      && s[at] == '@' && s[dot] == '.'
      && PlainRun(s[..at]) && PlainRun(s[at + 1..dot]) && PlainRun(s[dot + 1..])
  }

  predicate NoSpace(s: string) {
    forall i | 0 <= i < |s| :: !IsSpace(s[i])
  }

  /** A `.` in the domain that is neither its first nor its last character. */
  predicate InnerDot(domain: string) {
    exists p | 0 < p < |domain| - 1 :: domain[p] == '.'
  }

  /** `validateEmail(email)`: no whitespace, a single `@` after a non-empty
      local part, and an inner `.` in the domain after it. */
  predicate ValidateEmail(email: string): (b: bool)
    ensures b ==> 5 <= |email| && email[0] != '@' && '@' in email
  {
    && NoSpace(email)
    && exists at | 0 < at < |email| ::
      && email[at] == '@'
      && (forall i | 0 <= i < |email| && i != at :: email[i] != '@')
      && InnerDot(email[at + 1..])
  }

  /** A slice of a string whose characters are all plain is a plain run when non-empty. */
  lemma SliceIsPlainRun(s: string, lo: int, hi: int)
    requires 0 <= lo < hi <= |s|
    requires forall i | lo <= i < hi :: PlainChar(s[i])
    ensures PlainRun(s[lo..hi])
  {
    var t := s[lo..hi];
    forall i | 0 <= i < |t|
      ensures PlainChar(t[i])
    {
      assert t[i] == s[lo + i];
    }
  }

  lemma ValidEmailMatches(s: string)
    requires ValidateEmail(s)
    ensures MatchesEmailPattern(s)
  {
    var at :| 0 < at < |s| && s[at] == '@'
      && (forall i | 0 <= i < |s| && i != at :: s[i] != '@')
      && InnerDot(s[at + 1..]);
    var domain := s[at + 1..];
    var p :| 0 < p < |domain| - 1 && domain[p] == '.';
    var dot := at + 1 + p;
    assert s[dot] == domain[p];
    assert forall i | 0 <= i < |s| && i != at :: PlainChar(s[i]);
    SliceIsPlainRun(s, 0, at);
    SliceIsPlainRun(s, at + 1, dot);
    SliceIsPlainRun(s, dot + 1, |s|);
    assert s[..at] == s[0..at];
    assert s[dot + 1..] == s[dot + 1..|s|];
    assert && 0 <= at < dot < |s| && s[at] == '@' && s[dot] == '.'
           && PlainRun(s[..at]) && PlainRun(s[at + 1..dot]) && PlainRun(s[dot + 1..]);
  }

  lemma MatchIsValidEmail(s: string)
    requires MatchesEmailPattern(s)
    ensures ValidateEmail(s)
  {
    var at, dot :| 0 <= at < dot < |s|
      && s[at] == '@' && s[dot] == '.'
      && PlainRun(s[..at]) && PlainRun(s[at + 1..dot]) && PlainRun(s[dot + 1..]);
    var local, middle, top := s[..at], s[at + 1..dot], s[dot + 1..];
    forall i | 0 <= i < |s|
      ensures !IsSpace(s[i]) && (i != at ==> s[i] != '@')
    {
      if i < at {
        assert s[i] == local[i];
      } else if at < i < dot {
        assert s[i] == middle[i - at - 1];
      } else if dot < i {
        assert s[i] == top[i - dot - 1];
      }
    }
    var domain := s[at + 1..];
    assert domain[dot - at - 1] == '.';
    assert InnerDot(domain);
  }

  /** The check accepts exactly the strings the regular expression matches. */
  lemma ValidateEmailMatchesPattern(s: string)
    ensures ValidateEmail(s) <==> MatchesEmailPattern(s)
  {
    if ValidateEmail(s) {
      ValidEmailMatches(s);
    }
    if MatchesEmailPattern(s) {
      MatchIsValidEmail(s);
    }
  }

  lemma ValidEmailExample()
    ensures ValidateEmail("a@b.co")
  {
    var s := "a@b.co";
    assert s[1] == '@';
    assert s[2..][1] == '.';
    assert InnerDot(s[2..]);
    assert forall i | 0 <= i < |s| && i != 1 :: s[i] != '@';
  }

  lemma InvalidEmailExamples()
    ensures !ValidateEmail("a@b")
    ensures !ValidateEmail("plainstring")
  {
    assert !InnerDot("a@b"[2..]);
  }
}

=== FILE: Html.dfy ===
/** HTML escaping and line-break substitution of the email handler
    (app/api/send-appointment-email/route.ts, `escapeHtml` and the
    `\n` to `<br>` replacement of the request text). */
module Html {

  /** One of the five characters `escapeHtml` replaces. */
  predicate Special(c: char) {
    c == '&' || c == '<' || c == '>' || c == '"' || c == '\''
  }

  /** A character that could open or close a tag or an attribute value. */
  predicate Markup(c: char) {
    c == '<' || c == '>' || c == '"' || c == '\''
  }

  predicate NoMarkup(s: string) {
    forall i | 0 <= i < |s| :: !Markup(s[i])
  }

  predicate NoSpecial(s: string) {
    forall i | 0 <= i < |s| :: !Special(s[i])
  }

  /** The replacement table of `escapeHtml`. */
  function EscapeChar(c: char): (r: string)
    ensures NoMarkup(r)
    ensures !Special(c) ==> r == [c]
  {
    match c
    case '&' => "&amp;"
    case '<' => "&lt;"
    case '>' => "&gt;"
    case '"' => "&quot;"
    case '\'' => "&#039;"
    case _ => [c]
  }

  /** `escapeHtml(text)`: every character replaced through the table. */
  function EscapeHtml(s: string): (r: string)
    ensures NoMarkup(r)
    ensures |s| <= |r|
  {
    if s == [] then [] else EscapeChar(s[0]) + EscapeHtml(s[1..])
  }

  lemma {:induction false} EscapeAppend(a: string, b: string)
    ensures EscapeHtml(a + b) == EscapeHtml(a) + EscapeHtml(b)
  {
    if a == [] {
      assert a + b == b;
    } else {
      assert (a + b)[0] == a[0] && (a + b)[1..] == a[1..] + b;
      EscapeAppend(a[1..], b);
    }
  }

  /** A string without any of the five characters is returned as it is. */
  lemma {:induction false} EscapePlain(s: string)
    requires NoSpecial(s)
    ensures EscapeHtml(s) == s
  {
    if s != [] {
      EscapePlain(s[1..]);
    }
  }

  /** Decoding of the five entities `escapeHtml` produces, left to right;
      any other `&` stands for itself. */
  function UnescapeHtml(t: string): string
    decreases |t|
  {
    if t == [] then []
    else if "&amp;" <= t then "&" + UnescapeHtml(t[5..])
    else if "&lt;" <= t then "<" + UnescapeHtml(t[4..])
    else if "&gt;" <= t then ">" + UnescapeHtml(t[4..])
    else if "&quot;" <= t then "\"" + UnescapeHtml(t[6..])
    else if "&#039;" <= t then "'" + UnescapeHtml(t[6..])
    else [t[0]] + UnescapeHtml(t[1..])
  }

  /** Decoding undoes the escape of one character in front of any text. */
  lemma UnescapeEscapeChar(c: char, rest: string)
    ensures UnescapeHtml(EscapeChar(c) + rest) == [c] + UnescapeHtml(rest)
  {
    var t := EscapeChar(c) + rest;
    if c == '&' {
      assert "&amp;" <= t && t[5..] == rest;
    } else if c == '<' {
      assert t[1] == 'l' && "&lt;" <= t && t[4..] == rest;
    } else if c == '>' {
      assert t[1] == 'g' && "&gt;" <= t && t[4..] == rest;
    } else if c == '"' {
      assert t[1] == 'q' && "&quot;" <= t && t[6..] == rest;
    } else if c == '\'' {
      assert t[1] == '#' && "&#039;" <= t && t[6..] == rest;
    } else {
      assert t[0] == c && t[1..] == rest;
      assert !("&amp;" <= t) && !("&lt;" <= t) && !("&gt;" <= t);
      assert !("&quot;" <= t) && !("&#039;" <= t);
    }
  }

  /** Decoding the five entities recovers the escaped text. */
  lemma {:induction false} UnescapeEscape(s: string)
    ensures UnescapeHtml(EscapeHtml(s)) == s
  {
    if s != [] {
      UnescapeEscapeChar(s[0], EscapeHtml(s[1..]));
      UnescapeEscape(s[1..]);
      assert [s[0]] + s[1..] == s;
    }
  }

  /** Different texts never escape to the same markup. */
  lemma EscapeInjective(a: string, b: string)
    requires EscapeHtml(a) == EscapeHtml(b)
    ensures a == b
  {
    UnescapeEscape(a);
    UnescapeEscape(b);
  }

  /** `.replace(/\n/g, '<br>')` */
  function BreakLines(s: string): (r: string)
    ensures forall i | 0 <= i < |r| :: r[i] != '\n'
  {
    if s == [] then []
    else (if s[0] == '\n' then "<br>" else [s[0]]) + BreakLines(s[1..])
  }

  lemma {:induction false} BreakLinesAppend(a: string, b: string)
    ensures BreakLines(a + b) == BreakLines(a) + BreakLines(b)
  {
    if a == [] {
      assert a + b == b;
    } else {
      assert (a + b)[0] == a[0] && (a + b)[1..] == a[1..] + b;
      BreakLinesAppend(a[1..], b);
    }
  }

  /** Text without line breaks is left as it is. */
  lemma {:induction false} BreakLinesPlain(s: string)
    requires forall i | 0 <= i < |s| :: s[i] != '\n'
    ensures BreakLines(s) == s
  {
    if s != [] {
      BreakLinesPlain(s[1..]);
    }
  }

  /** Every `<` of `s` opens a `<br>` tag. */
  predicate OpensOnlyBreaks(s: string) {
    forall i | 0 <= i < |s| && s[i] == '<' :: i + 4 <= |s| && s[i..i + 4] == "<br>"
  }

  /** Every `>` of `s` closes a `<br>` tag. */
  predicate ClosesOnlyBreaks(s: string) {
    forall i | 0 <= i < |s| && s[i] == '>' :: i >= 3 && s[i - 3..i + 1] == "<br>"
  }

  predicate NoQuotes(s: string) {
    forall i | 0 <= i < |s| :: s[i] != '"' && s[i] != '\''
  }

  lemma {:induction false} BreakLinesOpens(s: string)
    requires NoMarkup(s)
    ensures OpensOnlyBreaks(BreakLines(s))
  {
    if s != [] {
      BreakLinesOpens(s[1..]);
      var head := if s[0] == '\n' then "<br>" else [s[0]];
      var tail := BreakLines(s[1..]);
      var r := head + tail;
      assert r == BreakLines(s);
      forall i | 0 <= i < |r| && r[i] == '<'
        ensures i + 4 <= |r| && r[i..i + 4] == "<br>"
      {
        if i >= |head| {
          var j := i - |head|;
          assert tail[j] == r[i] == '<';
          assert j + 4 <= |tail| && tail[j..j + 4] == "<br>";
          assert r[i..i + 4] == tail[j..j + 4];
        }
      }
    }
  }

  lemma {:induction false} BreakLinesCloses(s: string)
    requires NoMarkup(s)
    ensures ClosesOnlyBreaks(BreakLines(s))
  {
    if s != [] {
      BreakLinesCloses(s[1..]);
      var head := if s[0] == '\n' then "<br>" else [s[0]];
      var tail := BreakLines(s[1..]);
      var r := head + tail;
      assert r == BreakLines(s);
      forall i | 0 <= i < |r| && r[i] == '>'
        ensures i >= 3 && r[i - 3..i + 1] == "<br>"
      {
        if i >= |head| {
          var j := i - |head|;
          assert tail[j] == r[i] == '>';
          assert j >= 3 && tail[j - 3..j + 1] == "<br>";
          assert r[i - 3..i + 1] == tail[j - 3..j + 1];
        }
      }
    }
  }

  lemma {:induction false} BreakLinesNoQuotes(s: string)
    requires NoMarkup(s)
    ensures NoQuotes(BreakLines(s))
  {
    if s != [] {
      BreakLinesNoQuotes(s[1..]);
      var head := if s[0] == '\n' then "<br>" else [s[0]];
      var tail := BreakLines(s[1..]);
      assert head + tail == BreakLines(s);
    }
  }

  /** Line breaks into markup introduce no markup beyond the `<br>` tags
      when the input had none. */
  lemma BreakLinesSafe(s: string)
    requires NoMarkup(s)
    ensures HtmlSafe(BreakLines(s))
  {
    BreakLinesOpens(s);
    BreakLinesCloses(s);
    BreakLinesNoQuotes(s);
  }

  /** Escaped text is safe to embed as it is. */
  lemma EscapedIsHtmlSafe(s: string)
    ensures HtmlSafe(EscapeHtml(s))
  {
  }

  /** Turning `<br>` tags back into newlines, the inverse of `BreakLines`. */
  function UnbreakLines(t: string): string
    decreases |t|
  {
    if t == [] then []
    else if "<br>" <= t then "\n" + UnbreakLines(t[4..])
    else [t[0]] + UnbreakLines(t[1..])
  }

  lemma {:induction false} UnbreakBreak(s: string)
    requires forall i | 0 <= i < |s| :: s[i] != '<'
    ensures UnbreakLines(BreakLines(s)) == s
  {
    if s != [] {
      var head := if s[0] == '\n' then "<br>" else [s[0]];
      var t := head + BreakLines(s[1..]);
      assert t[|head|..] == BreakLines(s[1..]);
      if s[0] != '\n' {
        assert t[0] == s[0];
      }
      UnbreakBreak(s[1..]);
      assert [s[0]] + s[1..] == s;
    }
  }

  /** `safeAppointmentRequest`: the escaped request, one `<br>` per line
      break. It is safe to embed and keeps the text on one line. */
  function SafeRequest(s: string): (r: string)
    ensures HtmlSafe(r)
    ensures forall i | 0 <= i < |r| :: r[i] != '\n'
  {
    BreakLinesSafe(EscapeHtml(s));
    BreakLines(EscapeHtml(s))
  }

  /** The request as embedded in HTML keeps every character of the original:
      removing the `<br>` tags and decoding the entities gives it back. */
  lemma SafeRequestDecodes(s: string)
    ensures UnescapeHtml(UnbreakLines(SafeRequest(s))) == s
  {
    UnbreakBreak(EscapeHtml(s));
    UnescapeEscape(s);
  }

  /** Text that opens and closes no tag but `<br>` and holds no quote that
      could end an attribute value. */
  predicate HtmlSafe(s: string) {
    OpensOnlyBreaks(s) && ClosesOnlyBreaks(s) && NoQuotes(s)
  }
}

=== FILE: Options.dfy ===
/** An optional value, used for JSON fields that may be absent and for
    environment settings that may be unset. */
module Options {

  datatype Option<+T> = None | Some(value: T)
}

=== FILE: PhoneNumber.dfy ===
/** Live phone formatting and the ten-digit check of the appointment form
    (components/AppointmentModal.tsx, `formatPhone` and `validatePhone`). */
module PhoneNumber {
  import opened Text

  /** The placeholder the input shows; `d` marks a digit position. */
  const Mask: string := "(ddd) ddd-dddd"

  /** The `maxLength` of the phone input. */
  const MaxLength: nat := 14

  function Min(a: int, b: int): int {
    if a <= b then a else b
  }

  /** The first ten digits: all the formatted value ever keeps. */
  function Take10(d: string): (r: string)
    ensures |r| == Min(|d|, 10) && r == d[..|r|]
  {
    if |d| <= 10 then d else d[..10]
  }

  /** Punctuation inserted as the digit string `n` grows: nothing up to
      three digits, then the first three inside the parenthesis, and never
      more than the input's `maxLength`. */
  function Punctuate(n: string): (r: string)
    ensures |r| <= MaxLength
    ensures |n| <= 3 ==> r == n
    ensures 3 < |n| ==> 7 <= |r| && r[0] == '(' && r[1..4] == n[..3] && r[4..6] == ") "
  {
    if |n| <= 3 then n
    else if |n| <= 6 then "(" + n[..3] + ") " + n[3..]
    else "(" + n[..3] + ") " + n[3..6] + "-" + n[6..Min(|n|, 10)]
  }

  /** `formatPhone(value)` */
  function FormatPhone(value: string): (r: string)
    ensures |r| <= MaxLength
  {
    Punctuate(Digits(value))
  }

  /** `validatePhone(phone)`: the value holds exactly ten digits, so it is
      at least ten characters long. */
  predicate ValidatePhone(phone: string): (b: bool)
    ensures b ==> 10 <= |phone|
  {
    |Digits(phone)| == 10
  }

  /** `r` agrees with a prefix of the mask: digits where it shows `d`,
      the mask's own punctuation elsewhere. */
  predicate FitsMask(r: string) {
    && |r| <= |Mask|
    && forall i | 0 <= i < |r| :: if Mask[i] == 'd' then IsDigit(r[i]) else r[i] == Mask[i]
  }

  lemma PunctuationHasNoDigits()
    ensures NoDigits("(") && NoDigits(") ") && NoDigits("-")
  {
  }

  /** Appending punctuation adds no digit. */
  lemma DigitsThenPunctuation(x: string, p: string)
    requires NoDigits(p)
    ensures Digits(x + p) == Digits(x)
  {
    DigitsAppend(x, p);
    DigitsOfNoDigits(p);
    assert Digits(x) + [] == Digits(x);
  }

  /** Appending digits appends exactly those digits. */
  lemma DigitsThenDigits(x: string, a: string)
    requires AllDigits(a)
    ensures Digits(x + a) == Digits(x) + a
  {
    DigitsAppend(x, a);
    DigitsOfAllDigits(a);
  }

  /** The digits of a punctuated string are the first ten digits put in. */
  lemma PunctuateDigits(n: string)
    requires AllDigits(n)
    ensures Digits(Punctuate(n)) == Take10(n)
  {
    if |n| <= 3 {
      DigitsOfAllDigits(n);
    } else if |n| <= 6 {
      PunctuateDigitsShort(n);
    } else {
      PunctuateDigitsLong(n);
    }
  }

  lemma PunctuateDigitsShort(n: string)
    requires AllDigits(n) && 4 <= |n| <= 6
    ensures Digits(Punctuate(n)) == n
  {
    PunctuationHasNoDigits();
    var a, b := n[..3], n[3..];
    assert Digits("(") == [] by { DigitsOfNoDigits("("); }
    DigitsThenDigits("(", a);
    DigitsThenPunctuation("(" + a, ") ");
    DigitsThenDigits("(" + a + ") ", b);
    assert [] + a + b == n;
  }

  lemma PunctuateDigitsLong(n: string)
    requires AllDigits(n) && 7 <= |n|
    ensures Digits(Punctuate(n)) == n[..Min(|n|, 10)]
  {
    PunctuationHasNoDigits();
    var k := Min(|n|, 10);
    var a, b, c := n[..3], n[3..6], n[6..k];
    assert Digits("(") == [] by { DigitsOfNoDigits("("); }
    DigitsThenDigits("(", a);
    DigitsThenPunctuation("(" + a, ") ");
    DigitsThenDigits("(" + a + ") ", b);
    DigitsThenPunctuation("(" + a + ") " + b, "-");
    DigitsThenDigits("(" + a + ") " + b + "-", c);
    assert [] + a + b + c == n[..k];
  }

  /** Digit preservation: the digits of `formatPhone(s)` are the first
      min(n, 10) digits of `s`, in order, and nothing else. */
  lemma FormatPhoneDigits(s: string)
    ensures Digits(FormatPhone(s)) == Take10(Digits(s))
  {
    PunctuateDigits(Digits(s));
  }

  /** Four to six digits: the parenthesised area code, a space, and the
      rest of the digits. */
  lemma PunctuateShapeShort(d: string)
    requires AllDigits(d) && 4 <= |d| <= 6
    ensures var r := Punctuate(d);
      FitsMask(r) && |r| == |d| + 3 && IsDigit(r[|r| - 1])
  {
    var r := Punctuate(d);
    assert r == "(" + d[..3] + ") " + d[3..];
    forall i | 0 <= i < |r|
      ensures if Mask[i] == 'd' then IsDigit(r[i]) else r[i] == Mask[i]
    {
      if 1 <= i < 4 {
        assert r[i] == d[i - 1];
      } else if 6 <= i {
        assert r[i] == d[i - 3];
      }
    }
  }

  /** Seven digits or more: the mask filled up to the last of the first ten
      digits. */
  lemma PunctuateShapeLong(d: string)
    requires AllDigits(d) && 7 <= |d|
    ensures var r := Punctuate(d);
      FitsMask(r) && |r| == Min(|d|, 10) + 4 && IsDigit(r[|r| - 1])
  {
    var r := Punctuate(d);
    var k := Min(|d|, 10);
    assert r == "(" + d[..3] + ") " + d[3..6] + "-" + d[6..k];
    forall i | 0 <= i < |r|
      ensures if Mask[i] == 'd' then IsDigit(r[i]) else r[i] == Mask[i]
    {
      if 1 <= i < 4 {
        assert r[i] == d[i - 1];
      } else if 6 <= i < 9 {
        assert r[i] == d[i - 3];
      } else if 10 <= i {
        assert r[i] == d[i - 4];
      }
    }
  }

  /** The shape of the formatted value as a function of the digit count n:
      digits alone up to three, then a prefix of the mask that ends on a
      digit, without the dash up to six and with it from seven on. */
  lemma FormatPhoneShape(s: string)
    ensures var n, r := |Digits(s)|, FormatPhone(s);
      && (n <= 3 ==> r == Digits(s))
      && (4 <= n <= 6 ==> FitsMask(r) && |r| == n + 3 && IsDigit(r[|r| - 1]))
      && (7 <= n ==> FitsMask(r) && |r| == Min(n, 10) + 4 && IsDigit(r[|r| - 1]))
  {
    var d := Digits(s);
    if 4 <= |d| <= 6 {
      PunctuateShapeShort(d);
    } else if 7 <= |d| {
      PunctuateShapeLong(d);
    }
  }

  /** Formatting depends on the digits alone, and only on the first ten. */
  lemma PunctuateTake10(n: string)
    ensures Punctuate(Take10(n)) == Punctuate(n)
  {
  }

  /** Re-formatting an already formatted value changes nothing. */
  lemma FormatPhoneIdempotent(s: string)
    ensures FormatPhone(FormatPhone(s)) == FormatPhone(s)
  {
    FormatPhoneDigits(s);
    PunctuateTake10(Digits(s));
  }

  /** A formatted value passes `validatePhone` exactly when the raw input
      held at least ten digits. */
  lemma ValidateFormattedPhone(s: string)
    ensures ValidatePhone(FormatPhone(s)) <==> |Digits(s)| >= 10
  {
    FormatPhoneDigits(s);
  }

  /** A formatted value that passes `validatePhone` fills the whole mask. */
  lemma ValidFormattedPhoneFillsMask(p: string)
    requires FormatPhone(p) == p && ValidatePhone(p)
    ensures |p| == MaxLength && FitsMask(p)
  {
    FormatPhoneShape(p);
  }

  /** A raw ten-digit number such as `7818741630` becomes `(781) 874-1630`,
      and formatting that again leaves it as it is. */
  lemma FormatTenDigits(n: string)
    requires AllDigits(n) && |n| == 10
    ensures var r := "(" + n[..3] + ") " + n[3..6] + "-" + n[6..];
      FormatPhone(n) == r && FormatPhone(r) == r
  {
    DigitsOfAllDigits(n);
    FormatPhoneIdempotent(n);
  }

  /** Short inputs never reach full punctuation. */
  lemma FormatShortNumbers()
    ensures FormatPhone("781") == "781"
    ensures FormatPhone("7818") == "(781) 8"
  {
    DigitsOfAllDigits("781");
    DigitsOfAllDigits("7818");
    assert "7818"[..3] == "781" && "7818"[3..] == "8";
  }

  /** A string of digits passes `validatePhone` exactly when it holds ten
      of them: nine or eleven digits are rejected. */
  lemma ValidatePhoneDigitCount(s: string)
    requires AllDigits(s)
    ensures ValidatePhone(s) <==> |s| == 10
  {
    DigitsOfAllDigits(s);
  }
}

=== FILE: Testimonials.dfy ===
/** The testimonial carousel (components/Testimonials.tsx): an index that
    steps round the fixed list of testimonials, and the three entries shown
    from it. */
module Testimonials {

  /** A testimonial, identified by its author; the quote and the portrait
      are display text. */
  datatype Testimonial = Testimonial(name: string)

  /** The fixed list the carousel shows, in order. */
  const Entries: seq<Testimonial> := [
    Testimonial("Mack Q."),
    Testimonial("Dave M."),
    Testimonial("Brittany C."),
    Testimonial("John M."),
    Testimonial("Dianna M."),
    Testimonial("Scott M.")
  ]

  /** How many testimonials are on screen at once. */
  const Shown: nat := 3

  /** The interval callback: `(prev + 1) % testimonials.length`. */
  function Rotate(prev: nat): (next: nat)
    ensures next < |Entries|
  {
    (prev + 1) % |Entries|
  }

  /** The index after `k` ticks of the interval. */
  function RotateN(current: nat, k: nat): nat
    decreases k
  {
    if k == 0 then current else RotateN(Rotate(current), k - 1)
  }

  /** `k` ticks advance the index by `k` places round the list. */
  lemma {:induction false} RotateNAdvances(current: nat, k: nat)
    requires current < |Entries|
    ensures RotateN(current, k) == (current + k) % |Entries|
    decreases k
  {
    if k > 0 {
      RotateNAdvances(Rotate(current), k - 1);
    }
  }

  /** A full round of ticks brings the index back where it started. */
  lemma RotatePeriodic(current: nat)
    requires current < |Entries|
    ensures RotateN(current, |Entries|) == current
  {
    RotateNAdvances(current, |Entries|);
  }

  /** The entries shown from `current`: three consecutive entries of the
      list read round its end. */
  function Window(current: nat): (w: seq<Testimonial>)
    ensures |w| == Shown
  {
    var start := current % |Entries|;
    (Entries + Entries)[start..start + Shown]
  }

  /** `getCurrentTestimonials` */
  method GetCurrentTestimonials(currentIndex: nat) returns (result: seq<Testimonial>)
    ensures result == Window(currentIndex)
  {
    WindowEntries(currentIndex);
    ghost var w := Window(currentIndex);
    result := [];
    var i := 0;
    while i < 3
      invariant 0 <= i <= 3
      invariant result == w[..i]
    {
      var index := (currentIndex + i) % |Entries|;
      assert w[..i + 1] == w[..i] + [w[i]];
      result := result + [Entries[index]];
      i := i + 1;
    }
    assert w[..3] == w;
  }

  /** Entry `i` of the window is `testimonials[(currentIndex + i) % length]`. */
  lemma WindowEntries(current: nat)
    ensures forall i | 0 <= i < Shown :: Window(current)[i] == Entries[(current + i) % |Entries|]
  {
    forall i | 0 <= i < Shown
      ensures Window(current)[i] == Entries[(current + i) % |Entries|]
    {
      assert (Entries + Entries)[current % |Entries| + i] == Entries[(current + i) % |Entries|];
    }
  }

  lemma ModAfterStep(current: nat, i: nat)
    ensures (Rotate(current) + i) % |Entries| == (current + 1 + i) % |Entries|
  {
    assert |Entries| == 6;
  }

  /** One tick slides the window: the first entry leaves and the next entry
      round the list joins at the end. */
  lemma WindowShift(current: nat)
    ensures Window(Rotate(current)) == Window(current)[1..] + [Entries[(current + Shown) % |Entries|]]
  {
    WindowEntries(current);
    WindowEntries(Rotate(current));
    var w, v := Window(current), Window(Rotate(current));
    var u := w[1..] + [Entries[(current + Shown) % |Entries|]];
    forall i | 0 <= i < Shown
      ensures v[i] == u[i]
    {
      ModAfterStep(current, i);
      if i < Shown - 1 {
        assert u[i] == w[i + 1];
      }
    }
    assert |v| == |u|;
  }

  /** No two testimonials in the list are by the same author. */
  lemma EntriesDistinct()
    ensures forall a, b | 0 <= a < b < |Entries| :: Entries[a] != Entries[b]
  {
  }

  /** With six entries and three on screen, the screen never shows the same
      testimonial twice. */
  lemma WindowDistinct(current: nat)
    ensures forall i, j | 0 <= i < j < Shown :: Window(current)[i] != Window(current)[j]
  {
    WindowEntries(current);
    EntriesDistinct();
    forall i, j | 0 <= i < j < Shown
      ensures Window(current)[i] != Window(current)[j]
    {
      var a, b := (current + i) % |Entries|, (current + j) % |Entries|;
      assert a != b;
    }
  }
}

=== FILE: Text.dfy ===
/** Character classes and the two string operations the form and the
    handler rely on: stripping non-digits (`replace(/\D/g, '')`) and
    trimming whitespace (`trim()`). */
module Text {

  /** The ECMAScript `\d` class: ASCII digits only. */
  predicate IsDigit(c: char) {
    '0' <= c <= '9'
  }

  /** The ECMAScript WhiteSpace and LineTerminator code points, which are
      both what `\s` matches and what `trim()` removes. */
  predicate IsSpace(c: char) {
    var n := c as int;
    || n == 0x09 || n == 0x0A || n == 0x0B || n == 0x0C || n == 0x0D
    || n == 0x20 || n == 0xA0 || n == 0x1680
    || (0x2000 <= n <= 0x200A)
    || n == 0x2028 || n == 0x2029 || n == 0x202F || n == 0x205F
    || n == 0x3000 || n == 0xFEFF
  }

  predicate AllDigits(s: string) {
    forall i | 0 <= i < |s| :: IsDigit(s[i])
  }

  predicate NoDigits(s: string) {
    forall i | 0 <= i < |s| :: !IsDigit(s[i])
  }

  /** The digits of `s`, in order: `s.replace(/\D/g, '')`. */
  function Digits(s: string): (r: string)
    ensures AllDigits(r)
    ensures |r| <= |s|
  {
    if s == [] then []
    else (if IsDigit(s[0]) then [s[0]] else []) + Digits(s[1..])
  }

  lemma {:induction false} DigitsAppend(a: string, b: string)
    ensures Digits(a + b) == Digits(a) + Digits(b)
  {
    if a == [] {
      assert a + b == b;
    } else {
      var ab := a + b;
      var h := if IsDigit(a[0]) then [a[0]] else [];
      assert ab != [] && ab[0] == a[0] && ab[1..] == a[1..] + b;
      assert Digits(ab) == h + Digits(a[1..] + b);
      assert Digits(a) == h + Digits(a[1..]);
      DigitsAppend(a[1..], b);
      assert h + (Digits(a[1..]) + Digits(b)) == (h + Digits(a[1..])) + Digits(b);
    }
  }

  /** Removing non-digits leaves a string of digits unchanged. */
  lemma {:induction false} DigitsOfAllDigits(s: string)
    requires AllDigits(s)
    ensures Digits(s) == s
  {
    if s != [] {
      DigitsOfAllDigits(s[1..]);
    }
  }

  /** A string without digits has no digits to keep. */
  lemma {:induction false} DigitsOfNoDigits(s: string)
    requires NoDigits(s)
    ensures Digits(s) == []
  {
    if s != [] {
      DigitsOfNoDigits(s[1..]);
    }
  }

  /** `s` with its leading whitespace removed. */
  function TrimStart(s: string): (r: string)
    ensures |r| <= |s| && r == s[|s| - |r|..]
    ensures forall i | 0 <= i < |s| - |r| :: IsSpace(s[i])
    ensures r != [] ==> !IsSpace(r[0])
  {
    if s != [] && IsSpace(s[0]) then TrimStart(s[1..]) else s
  }

  /** `s` with its trailing whitespace removed. */
  function TrimEnd(s: string): (r: string)
    ensures |r| <= |s| && r == s[..|r|]
    ensures forall i | |r| <= i < |s| :: IsSpace(s[i])
    ensures r != [] ==> !IsSpace(r[|r| - 1])
  {
    if s != [] && IsSpace(s[|s| - 1]) then TrimEnd(s[..|s| - 1]) else s
  }

  /** `s.trim()`: no whitespace left at either end, and nothing left at all
      exactly when `s` is whitespace through and through. */
  function Trim(s: string): (r: string)
    ensures |r| <= |s|
    ensures r != [] ==> !IsSpace(r[0]) && !IsSpace(r[|r| - 1])
    ensures r == [] <==> forall i | 0 <= i < |s| :: IsSpace(s[i])
  {
    var t := TrimStart(s);
    var r := TrimEnd(t);
    assert r != [] ==> r[0] == t[0];
    assert t == [] ==> r == [];
    r
  }

  /** `!s.trim()`: a field is blank exactly when every character of it is
      whitespace. */
  predicate IsBlank(s: string): (b: bool)
    ensures b <==> forall i | 0 <= i < |s| :: IsSpace(s[i])
  {
    Trim(s) == ""
  }
}
